=== FILE: README.md ===
# Configuration drift: detection, baseline flattening and collection

This project models the configuration-drift core of the config monitor:

- **The engine.** `detectDrift` in `drift-detection-engine/src/driftDetector.js`:
  - filters the rules by environment;
  - reports MISSING, then OVERRIDDEN, then UNSAFE drifts;
  - matches keys with `*`-wildcard patterns, where the first matching rule wins;
  - compares values by their string form;
  - exempts the "disabled" values in its production check;
  - checks numeric bounds strictly.
- **The server detector.** `config-monitor-server-js/src/services/driftDetection.js`:
  - the same three checks, producing stringified database records;
  - no "disabled" exemption in its production check;
  - an insert loop that stores a finding only when no ACTIVE record exists for the same application and key.
- **Baseline flattening.** `flattenMap` in `config-monitor-server-js/src/services/yamlParser.js` turns a nested mapping into dot-joined leaf paths.
- **The agent's collector.** `config-monitor-agent-js/src/collector.js`:
  - the environment-variable filter and entry building;
  - entries from a custom source;
  - the last-wins merge;
  - the projection to a simple map;
  - per-source counts.

## How the model is built

JavaScript plain objects are association lists `Object<T> = seq<(string, T)>` (module `Objects`):
- Property assignment is `Put`: it replaces the key in place or appends it.
- `Object.assign` is `Assign`, a fold of `Put`.
- Their meaning is stated against Dafny maps:
  - `ToMap` is the object's map;
  - `LastWins` is the map that a stream of assignments leaves behind.

Iteration order is therefore explicit, and so is the order of every output.

Values are `VNull | VBool | VNum(int) | VStr`:
- `ToStr` is JavaScript `String`.
- `ParseNum` covers the part of `parseFloat` made of an optional sign and a digit run with no fraction or exponent after it, where the two agree. Every other string reads as no number (see "## Left out").

Each detector is a pure recursive function over the runtime entries or the rules. Each is paired with an "exact" lemma: every reported finding comes from an entry or rule meeting the detector's condition, and every such entry or rule is reported. A "per entry" lemma gives each entry's contribution at its own position.

The server's database is a sequence of records. The insert loop is a fold, `Persist`, with its invariants proved over an arbitrary store.

Flattening is compared with an independent reference, the stream of leaves with their paths. The collector's loops are compared with reference maps and with order-preserving reference lists.

Modules: `Wrappers`, `Text`, `Values`, `Objects`, `Patterns`, `Rules`, `Engine`, `Server`, `Variants` (the two detectors side by side), `Flatten`, `FlattenLaws`, `Collector`, `EngineScenarios` and `ServerScenarios`. The last two hold worked scenarios: lemmas about fixed inputs, mostly the situations of `drift-detection-engine/src/driftDetector.test.js`.

Two behaviours of the code are easy to miss:
- `flattenMap` treats `Date` objects as leaves, as it does arrays (`config-monitor-server-js/src/services/yamlParser.js:25`).
- The server's production check has no "disabled" exemption (`config-monitor-server-js/src/services/driftDetection.js:166-167`).

## Model

| member | source | states |
|---|---|---|
| Rules.CreateRule | drift-detection-engine/src/driftDetector.js:257-267 | `required` is true only when given as true; `allowedInProd` is true unless given as `false`; bounds are kept as given (0 included); an absent or empty change policy becomes RUNTIME_ALLOWED and an absent or empty environment becomes `*`, otherwise the given ones are kept |
| Rules.Applicable | drift-detection-engine/src/driftDetector.js:72-74 | a rule survives the filter iff its environment is exactly `*` or exactly (case-sensitively) the caller's environment; no rule is added |
| Rules.ApplicableConcat | drift-detection-engine/src/driftDetector.js:72-74 | the filter distributes over concatenation, so it keeps rule order |
| Rules.OutOfScopeRuleIgnored | drift-detection-engine/src/driftDetector.js:72-74 | a rule scoped to another environment, inserted anywhere in the list, leaves the applicable rules unchanged |
| Rules.FindRule | drift-detection-engine/src/driftDetector.js:233-235 | the result is `None` iff no rule matches; otherwise it is a rule at some position that matches, with no matching rule before it (the first match) |
| Rules.EnvironmentComparisonsDiffer | drift-detection-engine/src/driftDetector.js:179 | the production check lower-cases the environment (`PROD`, `Prod` are production; `production`, `staging` are not) while the filter at lines 72-74 does not, so a `prod` rule is inactive under `PROD` |
| Patterns.EqualityShortcutRedundant | drift-detection-engine/src/driftDetector.js:241-252 | the early `pattern === key` return agrees with the compiled expression: a key matches exactly when the anchored expression (`.` literal, `*` any run of non-line-terminator characters) matches it, because every pattern matches its own text |
| Patterns.LiteralPatternMatchesOnlyItself | drift-detection-engine/src/driftDetector.js:241-252 | a pattern without `*` matches exactly the key it spells (its dots are literal) |
| Patterns.StarMatchesRun | drift-detection-engine/src/driftDetector.js:246-251 | `*` alone matches exactly the keys without line terminators |
| Patterns.TrailingWildcard | drift-detection-engine/src/driftDetector.js:246-251 | `prefix*` matches exactly the keys that start with the prefix and continue without a line break |
| Patterns.WildcardBoundary | drift-detection-engine/src/driftDetector.js:241-252 | `database.*` matches `database.url` and `database.`, not `database` |
| Values.ParseNum | drift-detection-engine/src/driftDetector.js:198-199 | a number reads as itself; `null` and booleans have no numeric reading |
| Values.NumberStringCoercion | drift-detection-engine/src/driftDetector.js:150 | a number and a string have the same string form iff the string is the number's decimal form |
| Values.NumberStringsDistinct | drift-detection-engine/src/driftDetector.js:150 | distinct numbers never compare equal by string form |
| Values.CoercionExamples | drift-detection-engine/src/driftDetector.js:150 | `true`/`"true"`, `false`/`"false"`, `null`/`"null"`, `10000`/`"10000"` compare equal; `10000`/`10001` do not |
| Text.DecimalRoundTrip | drift-detection-engine/src/driftDetector.js:198 | reading back the decimal form of any integer gives the integer |
| Text.DecimalInjective | drift-detection-engine/src/driftDetector.js:150 | distinct integers have distinct decimal forms |
| Engine.DetectMissing | drift-detection-engine/src/driftDetector.js:91-116 | every drift is MISSING, HIGH, expected `"(required)"`, actual `null`, reported under the rule's pattern; at most one per rule |
| Engine.MissingExact | drift-detection-engine/src/driftDetector.js:94-113 | a MISSING drift is reported iff it belongs to a required rule that no runtime key matches; non-required rules never yield one |
| Engine.MissingPerRule | drift-detection-engine/src/driftDetector.js:94-113 | each rule contributes at its own position one drift if unmet and nothing otherwise; overlapping rules are reported separately |
| Engine.NullValueCountsAsPresent | drift-detection-engine/src/driftDetector.js:98-100 | a key present with value `null` satisfies a required rule that matches it |
| Engine.DetectOverridden | drift-detection-engine/src/driftDetector.js:122-166 | every drift is OVERRIDDEN, MEDIUM; at most one per runtime entry; none without rules |
| Engine.OverrideForIsOverride | drift-detection-engine/src/driftDetector.js:126-162 | one entry yields its drift iff its first matching rule is CI_ONLY and the key is undeclared (expected `null`) or declared with a different string form (expected the declared value) |
| Engine.OverriddenExact | drift-detection-engine/src/driftDetector.js:126-163 | the drifts are exactly the overriding entries' drifts, both directions |
| Engine.OverridePerEntry | drift-detection-engine/src/driftDetector.js:126-163 | each entry contributes at its own position, in runtime order |
| Engine.SameStringFormNoOverride | drift-detection-engine/src/driftDetector.js:150 | equal string forms never give an override |
| Engine.NonCiOnlyNoOverride | drift-detection-engine/src/driftDetector.js:128-133 | without a matching rule, or under a non-CI_ONLY first match, nothing is reported whatever the values |
| Engine.UnsafeFor | drift-detection-engine/src/driftDetector.js:174-225 | at most three drifts per entry, all UNSAFE, CRITICAL or HIGH |
| Engine.UnsafeForExact | drift-detection-engine/src/driftDetector.js:178-224 | an entry's drifts are the production check, then the minimum, then the maximum, each present exactly when its condition holds |
| Engine.UnsafeForMembers | drift-detection-engine/src/driftDetector.js:178-224 | a drift is in an entry's list iff it is the drift of a violated condition |
| Engine.EntryUnsafeExact | drift-detection-engine/src/driftDetector.js:174-224 | an entry's drifts are exactly its violated conditions under its first matching rule |
| Engine.DetectUnsafe | drift-detection-engine/src/driftDetector.js:171-228 | all drifts UNSAFE, CRITICAL or HIGH; at most three per entry; none without rules |
| Engine.UnsafeExact | drift-detection-engine/src/driftDetector.js:174-225 | the drifts are exactly the violated conditions of the runtime entries, both directions |
| Engine.UnsafePerEntry | drift-detection-engine/src/driftDetector.js:174-225 | each entry contributes its drifts at its own position, in runtime order |
| Engine.ProductionSentinels | drift-detection-engine/src/driftDetector.js:179-184 | in production under a non-allowed rule, `0`, `true` and `"off"` are flagged; `null`, `false`, `"false"`, `"0"` are not |
| Engine.BoundEdges | drift-detection-engine/src/driftDetector.js:197-224 | a value equal to a bound, a value with no numeric reading, or a rule without bounds gives no bound drift |
| Engine.DetectDrift | drift-detection-engine/src/driftDetector.js:68-86 | no rules give no drifts; all MISSING drifts come before all OVERRIDDEN ones, which come before all UNSAFE ones |
| Engine.DetectDriftCall | drift-detection-engine/src/driftDetector.js:68-127 | for an omitted or string environment, the call raises (modelled as `None`) iff the runtime map is `null`/`undefined`, or the declared map is while the runtime map has an entry; omitted rules give no drifts; a missing declared map with an empty runtime map yields only the MISSING drifts of the applicable rules |
| Engine.OmittedEnvironmentIsProduction | drift-detection-engine/src/driftDetector.js:68 | omitting the environment is the same call as passing `prod` |
| Engine.MissingCitesRule | drift-detection-engine/src/driftDetector.js:106-110 | every MISSING drift names a rule of the list |
| Engine.OverriddenCitesRule | drift-detection-engine/src/driftDetector.js:145 | every OVERRIDDEN drift names a rule of the list |
| Engine.UnsafeCitesRule | drift-detection-engine/src/driftDetector.js:192 | every UNSAFE drift names a rule of the list |
| Engine.DriftsCiteApplicableRules | drift-detection-engine/src/driftDetector.js:68-86 | every drift names a rule that applies in the environment |
| Engine.OutOfScopeRuleInert | drift-detection-engine/src/driftDetector.js:72-74 | adding a rule scoped to another environment anywhere changes no result |
| Server.DetectMissingRequired | config-monitor-server-js/src/services/driftDetection.js:83-110 | every record is MISSING, HIGH, ACTIVE, for the application, expected `"(required)"`, actual `NULL` |
| Server.MissingRequiredExact | config-monitor-server-js/src/services/driftDetection.js:86-107 | a record is produced iff its rule is required and no runtime key matches it |
| Server.DetectRuntimeOverrides | config-monitor-server-js/src/services/driftDetection.js:112-156 | every record is OVERRIDE, MEDIUM, ACTIVE, with a stringified actual value; none without rules |
| Server.RuntimeOverridesExact | config-monitor-server-js/src/services/driftDetection.js:115-153 | records are produced exactly for the entries meeting the engine's override condition, with both sides stringified and `NULL` for a key missing from the baseline |
| Server.NoBaselineFlagsEveryCiOnlyKey | config-monitor-server-js/src/services/driftDetection.js:31-134 | a missing stored baseline reads as the empty map, so every runtime key whose first matching rule is CI_ONLY is recorded as an override, with expected `NULL` and its stringified value |
| Server.ViolationFor | config-monitor-server-js/src/services/driftDetection.js:161-216 | at most three RULE_VIOLATION records per entry, ACTIVE, for the application |
| Server.ViolationForExact | config-monitor-server-js/src/services/driftDetection.js:165-215 | the records are the production check (any non-null value), then minimum, then maximum, each exactly when its condition holds |
| Server.ViolationForMembers | config-monitor-server-js/src/services/driftDetection.js:165-215 | a record is in an entry's list iff it is the record of a violated condition |
| Server.EntryViolationsExact | config-monitor-server-js/src/services/driftDetection.js:161-215 | an entry's records are exactly its violated conditions under its first matching rule |
| Server.DetectRuleViolations | config-monitor-server-js/src/services/driftDetection.js:158-219 | all records RULE_VIOLATION, ACTIVE; at most three per entry; none without rules |
| Server.RuleViolationsExact | config-monitor-server-js/src/services/driftDetection.js:161-216 | the records are exactly the violated conditions of the runtime entries, both directions |
| Server.DetectAll | config-monitor-server-js/src/services/driftDetection.js:30-47 | all detected records are ACTIVE and for the application; no rules give none |
| Server.Insert | config-monitor-server-js/src/services/driftDetection.js:62-78 | a record is appended iff the store has no ACTIVE record with its application and key; nothing else changes; at most one ACTIVE record per pair is preserved |
| Server.Persist | config-monitor-server-js/src/services/driftDetection.js:62-78 | the loop only appends, at most one row per finding, and preserves "at most one ACTIVE per pair" |
| Server.ActiveAfterPersist | config-monitor-server-js/src/services/driftDetection.js:62-78 | after the loop a pair has an ACTIVE record iff it had one before or a finding for it is ACTIVE |
| Server.PersistAppendsKeptRows | config-monitor-server-js/src/services/driftDetection.js:62-78 | the loop appends exactly the findings whose pair is free in the old store and among the earlier findings, in order |
| Server.PersistCoversBatch | config-monitor-server-js/src/services/driftDetection.js:62-78 | every ACTIVE finding has an ACTIVE record for its pair afterwards |
| Server.PersistAddsFreshActives | config-monitor-server-js/src/services/driftDetection.js:57-78 | one run adds at most one ACTIVE record per pair, and none for a pair that already had one |
| Server.InactiveRowsNeverBlock | config-monitor-server-js/src/services/driftDetection.js:57-60 | acknowledged and resolved rows are ignored: the rows appended are those appended to an empty store |
| Server.PersistIdempotent | config-monitor-server-js/src/services/driftDetection.js:57-78 | running the loop again on the same ACTIVE findings stores nothing more |
| Server.ProcessSnapshot | config-monitor-server-js/src/services/driftDetection.js:26-81 | fails iff the application is unknown; otherwise returns exactly the detected findings (the three detectors on the rules of the application's environment), stored or not, and the new store is the old one followed by exactly the findings the insert loop keeps (`KeptRows`); every returned finding has an ACTIVE row for its pair and "at most one ACTIVE per pair" is preserved |
| Variants.MissingVariantsCorrespond | config-monitor-server-js/src/services/driftDetection.js:83-110 | the server's missing records and the engine's MISSING drifts agree position by position (key, severity, type) |
| Variants.OverrideVariantsCorrespond | config-monitor-server-js/src/services/driftDetection.js:112-156 | the override records and the OVERRIDDEN drifts agree position by position; the record's actual value is `String` of the drift's |
| Variants.ProductionCheckDiffers | config-monitor-server-js/src/services/driftDetection.js:166-167 | the server's production check is the engine's or (in production, under a non-allowed rule) the value is `false`, `"false"` or `"0"`; the bound checks are the same |
| Variants.EntryVariantsCorrespond | config-monitor-server-js/src/services/driftDetection.js:161-216 | for a value that is not a non-null disabled sentinel, one entry's records and drifts agree |
| Variants.ViolationVariantsCorrespond | config-monitor-server-js/src/services/driftDetection.js:158-219 | without non-null disabled sentinels the violation records and UNSAFE drifts agree |
| Variants.DetectionVariantsCorrespond | config-monitor-server-js/src/services/driftDetection.js:26-47 | with the baseline as declared configuration, the server's findings and the engine's drifts agree key by key, severity by severity, in order, unless a runtime value is a non-null disabled sentinel |
| Flatten.Join | config-monitor-server-js/src/services/yamlParser.js:23 | at top level the path is the key; below a prefix it is the prefix, a dot, then the key |
| Flatten.FlattenMap | config-monitor-server-js/src/services/yamlParser.js:19-35 | the result has distinct keys |
| Flatten.FlattenFirstDistinct | config-monitor-server-js/src/services/yamlParser.js:22-32 | the loop never produces a key twice |
| Flatten.LeavesFirstAreLeaves | config-monitor-server-js/src/services/yamlParser.js:25-31 | no nested mapping is ever emitted as a value |
| Flatten.UnfoldNested | config-monitor-server-js/src/services/yamlParser.js:25-27 | a nested mapping is flattened under its path and assigned into the result |
| Flatten.UnfoldLeaf | config-monitor-server-js/src/services/yamlParser.js:28-31 | a leaf is assigned under its path |
| Flatten.NestedCombine | config-monitor-server-js/src/services/yamlParser.js:27 | assigning the flattened nested mapping extends the leaf stream by its leaves |
| Flatten.LeafCombine | config-monitor-server-js/src/services/yamlParser.js:30 | assigning a leaf extends the leaf stream by it |
| FlattenLaws.FlattenFirstIsLastWins | config-monitor-server-js/src/services/yamlParser.js:19-35 | after any number of entries the result denotes the later-wins map of their leaves |
| FlattenLaws.FlattenIsLastWinsOfLeaves | config-monitor-server-js/src/services/yamlParser.js:19-35 | the flattened map is the later-wins map of the document's leaves with their paths |
| FlattenLaws.FlattenValuesAreLeaves | config-monitor-server-js/src/services/yamlParser.js:25-31 | every value of the result is a leaf (scalar, null, array or date) |
| FlattenLaws.FlattenKeysAreLeafPaths | config-monitor-server-js/src/services/yamlParser.js:22-31 | the keys of the result are exactly the leaf paths |
| FlattenLaws.LeafPathsUnderPrefix | config-monitor-server-js/src/services/yamlParser.js:23 | below a non-empty prefix every path starts with the prefix and a dot |
| FlattenLaws.FlattenFirstOnlyReadsPrefix | config-monitor-server-js/src/services/yamlParser.js:22 | the result after `n` entries depends only on those entries |
| FlattenLaws.EmptyNestedObjectVanishes | config-monitor-server-js/src/services/yamlParser.js:22-27 | an empty nested mapping contributes no key wherever it stands: the result equals that of the mapping without it |
| FlattenLaws.FlatMapIsFixedPoint | config-monitor-server-js/src/services/yamlParser.js:19-35 | a top-level mapping of leaves flattens to itself, order included |
| FlattenLaws.LaterPathWins | config-monitor-server-js/src/services/yamlParser.js:27-30 | `"a.b"` and `{a: {b}}` collide and the one flattened later wins, in either order |
| Objects.Put | config-monitor-server-js/src/services/yamlParser.js:30 | assignment maps the key to the value and keeps every other key's value; it adds exactly the key |
| Objects.PutKeepsKeysDistinct | config-monitor-server-js/src/services/yamlParser.js:30 | assignment keeps the keys distinct |
| Objects.Assign | config-monitor-agent-js/src/collector.js:79 | `Object.assign` denotes the map union in which the source wins, and adds exactly the source's keys |
| Collector.CollectRuntimeConfig | config-monitor-agent-js/src/collector.js:16-47 | the entries have distinct keys |
| Collector.RuntimeConfigEntries | config-monitor-agent-js/src/collector.js:20-41 | a variable is collected iff the filter keeps it; its entry has its own key, its original value, the handler's safe value and secret flag, and source `ENVIRONMENT_VARIABLE` |
| Collector.RuntimeConfigInOrder | config-monitor-agent-js/src/collector.js:20-41 | the entries come out in the environment's order |
| Collector.KeepEnvVarExamples | config-monitor-agent-js/src/collector.js:22-29 | `NODE_ENV`, `NODE`, `NPM_TOKEN`, `DATABASE_URL` are kept; `NODE_OPTIONS`, `NODE_`, `npm_config_cache` are skipped |
| Collector.CollectIntoMap | config-monitor-agent-js/src/collector.js:20-41 | the loop denotes the kept keys of the input's later-wins map, each with its entry |
| Collector.CollectIntoAppends | config-monitor-agent-js/src/collector.js:56-66 | over an object the loop appends exactly the reference entries, in order |
| Collector.CollectFromSource | config-monitor-agent-js/src/collector.js:53-69 | the entries have distinct keys |
| Collector.FromSourceEntries | config-monitor-agent-js/src/collector.js:53-69 | exactly one entry per property, in order, with its key, original value, the handler's answers, and the given source name or `CONFIG_FILE` |
| Collector.EntriesOfAll | config-monitor-agent-js/src/collector.js:56-66 | without a filter the reference has one entry per property at its position |
| Collector.MergeConfigSources | config-monitor-agent-js/src/collector.js:75-83 | the merge has distinct keys |
| Collector.MergeIntoMap | config-monitor-agent-js/src/collector.js:78-80 | the loop denotes the later-wins map of all sources' properties in turn, with exactly their keys |
| Collector.MergeIsLastWins | config-monitor-agent-js/src/collector.js:75-83 | the merge is the later-wins map of the sources' properties in turn |
| Collector.MergeKeysAreUnion | config-monitor-agent-js/src/collector.js:75-83 | a key is in the merge iff some source has it |
| Collector.MergeTakesLastSource | config-monitor-agent-js/src/collector.js:75-83 | a key takes its value from the last source that has it |
| Collector.MergeOptionalKeys | config-monitor-agent-js/src/collector.js:75-83 | over arguments that may be `null` or `undefined`, a key is in the merge iff some present argument has it |
| Collector.AbsentSourceIgnored | config-monitor-agent-js/src/collector.js:78-80 | a `null` or `undefined` argument, wherever it stands, changes nothing: `Object.assign` skips it |
| Collector.ToSimpleMap | config-monitor-agent-js/src/collector.js:89-95 | the simple map has distinct keys |
| Collector.SimpleMapIsLastWins | config-monitor-agent-js/src/collector.js:89-95 | the simple map is the later-wins map of each entry's `key` with its `safeValue`, and nothing else |
| Collector.SimpleMapOfCollected | config-monitor-agent-js/src/collector.js:89-95 | over collected entries the simple map has the same keys, in order, each with its safe value |
| Collector.GetSourceStats | config-monitor-agent-js/src/collector.js:100-106 | the statistics have distinct keys |
| Collector.LookupIncrement | config-monitor-agent-js/src/collector.js:103 | incrementing a source raises its count by one and leaves every other count |
| Collector.IncrementTotal | config-monitor-agent-js/src/collector.js:103 | incrementing raises the total by one |
| Collector.StatsIntoCounts | config-monitor-agent-js/src/collector.js:102-104 | the loop adds to each count the number of entries with that source |
| Collector.StatsIntoKeys | config-monitor-agent-js/src/collector.js:102-104 | the loop adds exactly the sources that occur |
| Collector.StatsIntoTotal | config-monitor-agent-js/src/collector.js:102-104 | the loop raises the total by the number of entries |
| Collector.SourceStatsCount | config-monitor-agent-js/src/collector.js:100-106 | each source's count is its number of entries; exactly the occurring sources are listed; the counts sum to the number of entries |
| Collector.SourcesAreCounted | config-monitor-agent-js/src/collector.js:100-106 | a source occurs iff its count is positive |
| EngineScenarios.OneEntryOneRule | drift-detection-engine/src/driftDetector.js:68-86 | one entry under one applicable rule that matches it yields its override check followed by its unsafe checks |
| EngineScenarios.NumberAgainstNumericString | drift-detection-engine/src/driftDetector.test.js:154-176 | declared `"10000"` against runtime `10000` under a CI_ONLY rule gives no drift at all |
| EngineScenarios.DebugEnabledInProduction | drift-detection-engine/src/driftDetector.test.js:180-204 | `debug: true` against declared `false` under a prod-only CI_ONLY rule gives the MEDIUM override and one CRITICAL unsafe drift |
| EngineScenarios.DebugEnabledByDefault | drift-detection-engine/src/driftDetector.js:68-86 | with no environment given, `debug: true` under the prod-only CI_ONLY rule gives the same override and CRITICAL drift as in production |
| EngineScenarios.DebugIgnoredOutsideProduction | drift-detection-engine/src/driftDetector.test.js:262-283 | the same in `staging` gives nothing |
| EngineScenarios.TimeoutChecks | drift-detection-engine/src/driftDetector.test.js:206-260 | for `payment.timeout = n` under bounds 1000..30000: a HIGH `"min: 1000"` drift iff `n < 1000` and a HIGH `"max: 30000"` drift iff `n > 30000` |
| EngineScenarios.TimeoutBelowMinimum | drift-detection-engine/src/driftDetector.test.js:206-232 | `500` gives exactly the `"min: 1000"` drift |
| EngineScenarios.TimeoutAboveMaximum | drift-detection-engine/src/driftDetector.test.js:234-260 | `60000` gives exactly the `"max: 30000"` drift |
| EngineScenarios.TimeoutAtBounds | drift-detection-engine/src/driftDetector.js:200-212 | values equal to a bound give nothing |
| EngineScenarios.OverlappingRequiredRules | drift-detection-engine/src/driftDetector.js:94-113 | two unmet overlapping required rules are both reported, in rule order |
| EngineScenarios.NullAgainstDeclaredValue | drift-detection-engine/src/driftDetector.test.js:426-447 | runtime `null` against declared `"value"` under a CI_ONLY rule is exactly one override |
| ServerScenarios.DisabledValueFlaggedByServerOnly | config-monitor-server-js/src/services/driftDetection.js:166-180 | `debug = false` in production is a CRITICAL server record but no engine drift |
| ServerScenarios.SameKeyFindingsStoredOnce | config-monitor-server-js/src/services/driftDetection.js:57-80 | an override and a violation for one key are both returned, but only the first is stored |
| ServerScenarios.UnknownApplication | config-monitor-server-js/src/services/driftDetection.js:34-38 | an unknown application is rejected |

## Left out

- Explanation and description texts, drift ids (`randomUUID`) and timestamps: they are opaque and not modelled.
- Values.ParseNum: reads only an optional sign and a digit run that no `.`, `e` or `E` follows. Every other string reads as "no number", even when `parseFloat` gives a number. This covers fractions and exponents (`"5.5"`, and also `"5.0"`, `"5."`, `"5e"` and `"1e3"`, whose values are integers), a leading `.` (`".5"`), leading whitespace and `Infinity`. On such strings the model's bound checks report nothing.
- Values.ToStr: `VNum` stands for the safe integers of a JavaScript number, |n| ≤ 2^53 − 1. Beyond them a double loses integers (9007199254740993 becomes 9007199254740992), and `String` switches to exponent form from 10^21 (`"1e+21"`). So `ToStr`, Text.DecimalInjective and Values.NumberStringsDistinct match the source only on safe integers. Non-integer numbers and floating-point formatting are not modelled.
- Server.DetectRuntimeOverrides: the stored baseline is modelled as a map of scalars. In the source it is the flattened YAML document, whose leaves can also be arrays, dates and non-integer numbers. `String` of an array is its comma-joined elements, so a baseline `[a, b]` equals runtime `"a,b"`. That comparison is not modelled, and the engine's declared values are likewise scalars.
- Iteration order of JavaScript objects: integer-like keys, which JavaScript lists first, and inherited `Object.prototype` properties are not modelled. An object is its insertion-ordered list of own properties.
- `js-yaml` loading in `parseYaml` and `JSON.parse` of the stored baseline: these are foreign parsers. `flattenMap` takes the loaded tree, and the server takes the parsed baseline (`None` for a missing one).
- The secret handler is a parameter `process` of the collector, because hashing and caller-supplied regular expressions are outside the core.
- The process environment is an input of `CollectRuntimeConfig` rather than a global.
- Collector.CollectFromSource: `None` models an omitted or `undefined` source name, which both take the `'CONFIG_FILE'` default. An explicit `null` name, which the source keeps as the entries' source, is not modelled.
- SQL: rule rows come back in an unspecified order, so the rule list is an input. Database failures other than an unknown application are not modelled.
- Engine.DetectDriftCall: a map argument that is present but not a plain object (a string, a number, an array) is not modelled, nor is a rule list that is not an array. Unlike the server's baseline, a missing engine map is not read as empty: the call raises. Nor is an environment that is `null` or not a string: the default replaces only an omitted or `undefined` environment, so such a value reaches `environment.toLowerCase()` (drift-detection-engine/src/driftDetector.js:179), which raises once a runtime key has a matching rule; `None` for the environment stands only for an omitted or `undefined` one.
- Collector.CollectFromSource: a `null` or `undefined` object argument raises a TypeError at `Object.entries` (config-monitor-agent-js/src/collector.js:56), as `toSimpleMap` and `getSourceStats` do at `Object.values` (lines 91 and 102); the model's arguments are always objects, so these errors are not modelled.
- Collector.MergeOptionalSources: arguments other than objects and `null`/`undefined` (a string, whose characters `Object.assign` copies as indexed properties) are not modelled.
- Timers, HTTP routes, the retry sender, the dashboard and the database schema are not part of this model.
- Patterns.Matches: rule patterns containing regular-expression metacharacters other than `.` and `*` are excluded by the `Pattern` type, since the source leaves them unescaped.
- Rules.IsProdEnv: lower-casing covers ASCII letters only. No other character lower-cases to a letter of `prod`, so the comparison is exact.
- Runtime values are scalars (`null`, booleans, integers, strings). Arrays, objects and dates are modelled only in `Flatten.Json`, the input and leaves of flattening; the detectors never see them (see Server.DetectRuntimeOverrides above).

=== FILE: collector.dfy ===
/** The agent's collector (config-monitor-agent-js/src/collector.js): the
    environment and configuration objects become entries that carry their source
    and a value safe to transmit; sources are merged with later ones winning;
    entries are projected to a simple key/value map and counted per source. The
    secret handler is a parameter: the collector only stores its two answers. */
module Collector {
  import opened Wrappers
  import opened Text
  import opened Objects

  const ENVIRONMENT_VARIABLE: string := "ENVIRONMENT_VARIABLE"
  const CONFIG_FILE: string := "CONFIG_FILE"

  /** What `secretHandler.processValue(key, value)` answers. */
  datatype Processed<V> = Processed(safeValue: V, isSecret: bool)

  type Handler<!V> = (string, V) -> Processed<V>

  /** A collected configuration entry. */
  datatype Entry<V> = Entry(key: string, value: V, safeValue: V, source: string, isSecret: bool)

  function MakeEntry<V>(key: string, value: V, source: string, process: Handler<V>): Entry<V> {
    var p := process(key, value);
    Entry(key, value, p.safeValue, source, p.isSecret)
  }

  // ------------------------------------------------------------- collecting

  /** The environment filter: Node.js internals (`NODE_` names other than
      `NODE_ENV`) and npm internals (`npm_` names) are skipped. */
  predicate KeepEnvVar(key: string) {
    !(StartsWith(key, "NODE_") && key != "NODE_ENV") && !StartsWith(key, "npm_")
  }

  /** No filter: a custom source keeps every property. */
  predicate AnyKey(key: string) {
    true
  }

  /** The collecting loop: the properties of `rest` in order, each kept one
      assigned to the result as an entry under its own key. */
  function CollectInto<V>(acc: Object<Entry<V>>, rest: Object<V>, keep: string -> bool,
                          source: string, process: Handler<V>): Object<Entry<V>>
    decreases |rest|
  {
    if |rest| == 0 then acc
    else
      var (key, value) := rest[0];
      var next := if keep(key) then Put(acc, key, MakeEntry(key, value, source, process)) else acc;
      CollectInto(next, rest[1..], keep, source, process)
  }

  /** `collectRuntimeConfig`, with the process environment as its input. */
  function CollectRuntimeConfig<V>(env: Object<V>, process: Handler<V>): (r: Object<Entry<V>>)
    ensures DistinctKeys(r)
  {
    CollectIntoDistinct([], env, KeepEnvVar, ENVIRONMENT_VARIABLE, process);
    CollectInto([], env, KeepEnvVar, ENVIRONMENT_VARIABLE, process)
  }

  /** `collectFromSource`; `None` is the omitted source name. */
  function CollectFromSource<V>(obj: Object<V>, sourceName: Option<string>, process: Handler<V>): (r: Object<Entry<V>>)
    ensures DistinctKeys(r)
  {
    CollectIntoDistinct([], obj, AnyKey, sourceName.GetOr(CONFIG_FILE), process);
    CollectInto([], obj, AnyKey, sourceName.GetOr(CONFIG_FILE), process)
  }

  /** The reference: the kept properties, in order, each turned into its entry. */
  function EntriesOf<V>(obj: Object<V>, keep: string -> bool, source: string, process: Handler<V>): Object<Entry<V>>
    decreases |obj|
  {
    if |obj| == 0 then []
    else
      (if keep(obj[0].0) then [(obj[0].0, MakeEntry(obj[0].0, obj[0].1, source, process))] else [])
      + EntriesOf(obj[1..], keep, source, process)
  }

  /** The reference as a map: every kept key of `m` with its entry. */
  ghost function Selected<V>(m: map<string, V>, keep: string -> bool, source: string, process: Handler<V>): map<string, Entry<V>> {
    map k | k in m && keep(k) :: MakeEntry(k, m[k], source, process)
  }

  lemma {:induction false} CollectIntoDistinct<V>(acc: Object<Entry<V>>, rest: Object<V>, keep: string -> bool,
                                                  source: string, process: Handler<V>)
    ensures DistinctKeys(acc) ==> DistinctKeys(CollectInto(acc, rest, keep, source, process))
    decreases |rest|
  {
    if |rest| > 0 {
      var (key, value) := rest[0];
      var next := if keep(key) then Put(acc, key, MakeEntry(key, value, source, process)) else acc;
      PutKeepsKeysDistinct(acc, key, MakeEntry(key, value, source, process));
      CollectIntoDistinct(next, rest[1..], keep, source, process);
    }
  }

  /** Over an object, whose keys are distinct, the loop appends exactly the
      reference entries, in order. */
  lemma {:induction false} CollectIntoAppends<V>(acc: Object<Entry<V>>, rest: Object<V>, keep: string -> bool,
                                                 source: string, process: Handler<V>)
    requires DistinctKeys(rest) && KeySet(acc) !! KeySet(rest)
    ensures CollectInto(acc, rest, keep, source, process) == acc + EntriesOf(rest, keep, source, process)
    decreases |rest|
  {
    if |rest| == 0 {
      assert acc + [] == acc;
    } else {
      var (key, value) := rest[0];
      var entry := MakeEntry(key, value, source, process);
      var tail := EntriesOf(rest[1..], keep, source, process);
      CopyFirstFresh(acc, rest, entry);
      if keep(key) {
        var next := acc + [(key, entry)];
        CollectIntoAppends(next, rest[1..], keep, source, process);
        ConcatShift(acc, (key, entry), tail);
      } else {
        assert KeySet(acc) !! KeySet(rest[1..]);
        CollectIntoAppends(acc, rest[1..], keep, source, process);
        assert [] + tail == tail;
      }
    }
  }

  /** One more assignment in front of the stream, seen through the filter. */
  lemma SelectedStep<V>(k: string, v: V, rest: map<string, V>, keep: string -> bool, source: string, process: Handler<V>)
    ensures Selected(map[k := v] + rest, keep, source, process)
         == (if keep(k) then map[k := MakeEntry(k, v, source, process)] else map[])
            + Selected(rest, keep, source, process)
  {
  }

  /** Whatever the input, the result denotes the kept keys of the input's
      later-wins map, each with its entry. */
  lemma {:induction false} CollectIntoMap<V>(acc: Object<Entry<V>>, rest: Object<V>, keep: string -> bool,
                                             source: string, process: Handler<V>)
    ensures ToMap(CollectInto(acc, rest, keep, source, process))
         == ToMap(acc) + Selected(LastWins(rest), keep, source, process)
    decreases |rest|
  {
    if |rest| == 0 {
      assert Selected(LastWins(rest), keep, source, process) == map[];
    } else {
      var (key, value) := rest[0];
      var entry := MakeEntry(key, value, source, process);
      var later := Selected(LastWins(rest[1..]), keep, source, process);
      SelectedStep(key, value, LastWins(rest[1..]), keep, source, process);
      if keep(key) {
        var next := Put(acc, key, entry);
        CollectIntoMap(next, rest[1..], keep, source, process);
        AssignStepMaps(ToMap(acc), key, entry, later);
      } else {
        CollectIntoMap(acc, rest[1..], keep, source, process);
        assert map[] + later == later;
      }
    }
  }

  /** `collectRuntimeConfig` keeps exactly the variables the filter keeps, each
      with its own key, its original value, the handler's safe value and secret
      flag, and source `ENVIRONMENT_VARIABLE`. */
  lemma RuntimeConfigEntries<V>(env: Object<V>, process: Handler<V>)
    ensures forall k :: k in ToMap(CollectRuntimeConfig(env, process)) <==> k in LastWins(env) && KeepEnvVar(k)
    ensures forall k :: k in ToMap(CollectRuntimeConfig(env, process)) ==>
              ToMap(CollectRuntimeConfig(env, process))[k]
              == Entry(k, LastWins(env)[k], process(k, LastWins(env)[k]).safeValue, ENVIRONMENT_VARIABLE,
                       process(k, LastWins(env)[k]).isSecret)
  {
    CollectIntoMap([], env, KeepEnvVar, ENVIRONMENT_VARIABLE, process);
    assert ToMap<Entry<V>>([]) == map[];
  }

  /** The entries come out in the environment's own order. */
  lemma RuntimeConfigInOrder<V>(env: Object<V>, process: Handler<V>)
    requires DistinctKeys(env)
    ensures CollectRuntimeConfig(env, process) == EntriesOf(env, KeepEnvVar, ENVIRONMENT_VARIABLE, process)
  {
    CollectIntoAppends([], env, KeepEnvVar, ENVIRONMENT_VARIABLE, process);
    assert [] + EntriesOf(env, KeepEnvVar, ENVIRONMENT_VARIABLE, process)
        == EntriesOf(env, KeepEnvVar, ENVIRONMENT_VARIABLE, process);
  }

  lemma KeepEnvVarExamples()
    ensures KeepEnvVar("DATABASE_URL") && KeepEnvVar("NODE_ENV") && KeepEnvVar("NODE")
    ensures !KeepEnvVar("NODE_OPTIONS") && !KeepEnvVar("NODE_") && !KeepEnvVar("npm_config_cache")
    ensures KeepEnvVar("NPM_TOKEN")
  {
    DiffersFromPrefix("DATABASE_URL", "NODE_", 0);
    DiffersFromPrefix("DATABASE_URL", "npm_", 0);
    DiffersFromPrefix("NODE_ENV", "npm_", 0);
    DiffersFromPrefix("NODE", "npm_", 0);
    DiffersFromPrefix("NPM_TOKEN", "NODE_", 1);
    DiffersFromPrefix("NPM_TOKEN", "npm_", 0);
    assert "NODE_OPTIONS"[..5] == "NODE_";
    assert "npm_config_cache"[..4] == "npm_";
  }

  /** Keeping every property, the reference has one entry per property, at its
      position. */
  lemma {:induction false} EntriesOfAll<V>(obj: Object<V>, source: string, process: Handler<V>)
    ensures |EntriesOf(obj, AnyKey, source, process)| == |obj|
    ensures forall i :: 0 <= i < |obj| ==>
              EntriesOf(obj, AnyKey, source, process)[i] == (obj[i].0, MakeEntry(obj[i].0, obj[i].1, source, process))
    decreases |obj|
  {
    if |obj| > 0 {
      EntriesOfAll(obj[1..], source, process);
      var rest := EntriesOf(obj[1..], AnyKey, source, process);
      forall i | 0 <= i < |obj|
        ensures EntriesOf(obj, AnyKey, source, process)[i] == (obj[i].0, MakeEntry(obj[i].0, obj[i].1, source, process))
      {
        if i > 0 {
          assert EntriesOf(obj, AnyKey, source, process)[i] == rest[i - 1];
          assert obj[1..][i - 1] == obj[i];
        }
      }
    }
  }

  /** `collectFromSource` gives exactly one entry per property of the object, in
      order, with that key, the original value and the given source name, which
      defaults to `CONFIG_FILE`. */
  lemma FromSourceEntries<V>(obj: Object<V>, sourceName: Option<string>, process: Handler<V>)
    requires DistinctKeys(obj)
    ensures |CollectFromSource(obj, sourceName, process)| == |obj|
    ensures forall i :: 0 <= i < |obj| ==>
              var e := CollectFromSource(obj, sourceName, process)[i];
              && e.0 == obj[i].0 && e.1.key == obj[i].0 && e.1.value == obj[i].1
              && e.1.source == (if sourceName.Some? then sourceName.value else CONFIG_FILE)
              && e.1.safeValue == process(obj[i].0, obj[i].1).safeValue
              && e.1.isSecret == process(obj[i].0, obj[i].1).isSecret
  {
    var source := sourceName.GetOr(CONFIG_FILE);
    CollectIntoAppends([], obj, AnyKey, source, process);
    assert [] + EntriesOf(obj, AnyKey, source, process) == EntriesOf(obj, AnyKey, source, process);
    EntriesOfAll(obj, source, process);
  }

  // ---------------------------------------------------------------- merging

  /** All the sources' properties, one source after another. */
  function Concat<T>(sources: seq<Object<T>>): Object<T>
    decreases |sources|
  {
    if |sources| == 0 then [] else sources[0] + Concat(sources[1..])
  }

  /** The merging loop: each source in turn assigned onto the result. */
  function MergeInto<T>(acc: Object<T>, rest: seq<Object<T>>): Object<T>
    decreases |rest|
  {
    if |rest| == 0 then acc else MergeInto(Assign(acc, rest[0]), rest[1..])
  }

  /** `mergeConfigSources`. */
  function MergeConfigSources<T>(sources: seq<Object<T>>): (r: Object<T>)
    ensures DistinctKeys(r)
  {
    MergeIntoDistinct([], sources);
    MergeInto([], sources)
  }

  /** The present arguments, in order. */
  function Present<T>(sources: seq<Option<T>>): (r: seq<T>)
    decreases |sources|
  {
    if |sources| == 0 then []
    else (if sources[0].Some? then [sources[0].value] else []) + Present(sources[1..])
  }

  lemma {:induction false} PresentConcat<T>(a: seq<Option<T>>, b: seq<Option<T>>)
    ensures Present(a + b) == Present(a) + Present(b)
    decreases |a|
  {
    if |a| > 0 {
      assert (a + b)[0] == a[0];
      assert (a + b)[1..] == a[1..] + b;
      PresentConcat(a[1..], b);
    } else {
      assert a + b == b;
    }
  }

  /** `mergeConfigSources` called with `null` or `undefined` arguments (`None`),
      which `Object.assign` skips. */
  function MergeOptionalSources<T>(sources: seq<Option<Object<T>>>): (r: Object<T>)
    ensures DistinctKeys(r)
  {
    MergeConfigSources(Present(sources))
  }

  /** A key is in the merge iff some present argument has it. */
  lemma MergeOptionalKeys<T>(sources: seq<Option<Object<T>>>, k: string)
    ensures k in KeySet(MergeOptionalSources(sources)) <==> exists s :: Some(s) in sources && k in KeySet(s)
  {
    var present := Present(sources);
    MergeKeysAreUnion(present, k);
    if k in KeySet(MergeOptionalSources(sources)) {
      var i :| 0 <= i < |present| && k in KeySet(present[i]);
      PresentKept(sources, present[i]);
    } else {
      forall s | Some(s) in sources
        ensures k !in KeySet(s)
      {
        PresentKept(sources, s);
        var i :| 0 <= i < |present| && present[i] == s;
      }
    }
  }

  /** Exactly the present arguments are kept. */
  lemma {:induction false} PresentKept<T>(sources: seq<Option<T>>, x: T)
    ensures x in Present(sources) <==> Some(x) in sources
    decreases |sources|
  {
    if |sources| > 0 {
      PresentKept(sources[1..], x);
      assert sources == [sources[0]] + sources[1..];
    }
  }

  /** A missing argument, wherever it stands, changes nothing. */
  lemma AbsentSourceIgnored<T>(before: seq<Option<Object<T>>>, after: seq<Option<Object<T>>>)
    ensures MergeOptionalSources(before + [None] + after) == MergeOptionalSources(before + after)
  {
    var absent: seq<Option<Object<T>>> := [None];
    assert before + [None] + after == (before + absent) + after;
    PresentConcat(before + absent, after);
    PresentConcat(before, absent);
    PresentConcat(before, after);
    assert Present(absent) == [] by {
      assert absent[1..] == [];
    }
    assert Present(before) + [] == Present(before);
    assert Present(before + [None] + after) == Present(before + after);
  }

  lemma {:induction false} MergeIntoDistinct<T>(acc: Object<T>, rest: seq<Object<T>>)
    ensures DistinctKeys(acc) ==> DistinctKeys(MergeInto(acc, rest))
    decreases |rest|
  {
    if |rest| > 0 {
      MergeIntoDistinct(Assign(acc, rest[0]), rest[1..]);
    }
  }

  /** Merging is assigning all the sources' properties in one stream. */
  lemma {:induction false} MergeIntoMap<T>(acc: Object<T>, rest: seq<Object<T>>)
    ensures ToMap(MergeInto(acc, rest)) == ToMap(acc) + LastWins(Concat(rest))
    ensures KeySet(MergeInto(acc, rest)) == KeySet(acc) + KeySet(Concat(rest))
    decreases |rest|
  {
    if |rest| > 0 {
      var next := Assign(acc, rest[0]);
      MergeIntoMap(next, rest[1..]);
      LastWinsConcat(rest[0], Concat(rest[1..]));
      KeySetConcat(rest[0], Concat(rest[1..]));
      UnionAssociative(ToMap(acc), LastWins(rest[0]), LastWins(Concat(rest[1..])));
    }
  }

  /** The merged object is the later-wins map of all the sources' properties. */
  lemma MergeIsLastWins<T>(sources: seq<Object<T>>)
    ensures ToMap(MergeConfigSources(sources)) == LastWins(Concat(sources))
  {
    MergeIntoMap([], sources);
    assert ToMap<T>([]) == map[];
  }

  lemma {:induction false} ConcatAppend<T>(a: seq<Object<T>>, b: seq<Object<T>>)
    ensures Concat(a + b) == Concat(a) + Concat(b)
    decreases |a|
  {
    if |a| == 0 {
      assert a + b == b;
    } else {
      assert (a + b)[1..] == a[1..] + b;
      ConcatAppend(a[1..], b);
    }
  }

  lemma {:induction false} ConcatKeys<T>(sources: seq<Object<T>>, k: string)
    ensures k in KeySet(Concat(sources)) <==> exists i :: 0 <= i < |sources| && k in KeySet(sources[i])
    decreases |sources|
  {
    if |sources| > 0 {
      ConcatKeys(sources[1..], k);
      KeySetConcat(sources[0], Concat(sources[1..]));
      if exists i :: 0 <= i < |sources| && k in KeySet(sources[i]) {
        var i :| 0 <= i < |sources| && k in KeySet(sources[i]);
        if i > 0 {
          assert sources[1..][i - 1] == sources[i];
        }
      }
    }
  }

  /** The merged keys are the union of the sources' keys. */
  lemma MergeKeysAreUnion<T>(sources: seq<Object<T>>, k: string)
    ensures k in KeySet(MergeConfigSources(sources)) <==> exists i :: 0 <= i < |sources| && k in KeySet(sources[i])
  {
    MergeIntoMap([], sources);
    ConcatKeys(sources, k);
  }

  /** Each key takes its value from the last source that has it. */
  lemma MergeTakesLastSource<T>(sources: seq<Object<T>>, i: nat, k: string)
    requires i < |sources| && k in KeySet(sources[i])
    requires forall j :: i < j < |sources| ==> k !in KeySet(sources[j])
    ensures k in ToMap(MergeConfigSources(sources))
    ensures ToMap(MergeConfigSources(sources))[k] == LastWins(sources[i])[k]
  {
    MergeIsLastWins(sources);
    var before, after := Concat(sources[..i]), Concat(sources[i + 1..]);
    ConcatAround(sources, i);
    LaterSourcesLackKey(sources, i, k);
    LastWinsConcat(before + sources[i], after);
    LastWinsConcat(before, sources[i]);
  }

  /** The concatenation split around source `i`. */
  lemma ConcatAround<T>(sources: seq<Object<T>>, i: nat)
    requires i < |sources|
    ensures Concat(sources) == Concat(sources[..i]) + sources[i] + Concat(sources[i + 1..])
  {
    var pre, mid, post := sources[..i], [sources[i]], sources[i + 1..];
    SplitAt(sources, i);
    ConcatAppend(pre + mid, post);
    ConcatAppend(pre, mid);
    ConcatSingle(sources[i]);
  }

  lemma ConcatSingle<T>(source: Object<T>)
    ensures Concat([source]) == source
  {
    assert [source][1..] == [];
    assert source + [] == source;
  }

  lemma LaterSourcesLackKey<T>(sources: seq<Object<T>>, i: nat, k: string)
    requires i < |sources|
    requires forall j :: i < j < |sources| ==> k !in KeySet(sources[j])
    ensures k !in KeySet(Concat(sources[i + 1..]))
  {
    var after := sources[i + 1..];
    ConcatKeys(after, k);
    forall j | 0 <= j < |after|
      ensures k !in KeySet(after[j])
    {
      assert after[j] == sources[i + 1 + j];
    }
  }

  // ------------------------------------------------------ projecting, counting

  /** The loop of `toSimpleMap`: each entry's safe value assigned under the
      entry's own `key`. */
  function SimpleInto<V>(acc: Object<V>, rest: Object<Entry<V>>): Object<V>
    decreases |rest|
  {
    if |rest| == 0 then acc
    else SimpleInto(Put(acc, rest[0].1.key, rest[0].1.safeValue), rest[1..])
  }

  /** `toSimpleMap`. */
  function ToSimpleMap<V>(entries: Object<Entry<V>>): (r: Object<V>)
    ensures DistinctKeys(r)
  {
    SimpleIntoDistinct([], entries);
    SimpleInto([], entries)
  }

  /** The reference: each entry's `key` paired with its safe value, in order. */
  function SafePairs<V>(entries: Object<Entry<V>>): (r: Object<V>)
    ensures |r| == |entries|
    decreases |entries|
  {
    if |entries| == 0 then [] else [(entries[0].1.key, entries[0].1.safeValue)] + SafePairs(entries[1..])
  }

  lemma {:induction false} SafePairsAt<V>(entries: Object<Entry<V>>)
    ensures forall i :: 0 <= i < |entries| ==> SafePairs(entries)[i] == (entries[i].1.key, entries[i].1.safeValue)
    decreases |entries|
  {
    if |entries| > 0 {
      SafePairsAt(entries[1..]);
      forall i | 0 < i < |entries|
        ensures SafePairs(entries)[i] == (entries[i].1.key, entries[i].1.safeValue)
      {
        assert SafePairs(entries)[i] == SafePairs(entries[1..])[i - 1];
        assert entries[1..][i - 1] == entries[i];
      }
    }
  }

  lemma {:induction false} SimpleIntoDistinct<V>(acc: Object<V>, rest: Object<Entry<V>>)
    ensures DistinctKeys(acc) ==> DistinctKeys(SimpleInto(acc, rest))
    decreases |rest|
  {
    if |rest| > 0 {
      PutKeepsKeysDistinct(acc, rest[0].1.key, rest[0].1.safeValue);
      SimpleIntoDistinct(Put(acc, rest[0].1.key, rest[0].1.safeValue), rest[1..]);
    }
  }

  lemma {:induction false} SimpleIntoMap<V>(acc: Object<V>, rest: Object<Entry<V>>)
    ensures ToMap(SimpleInto(acc, rest)) == ToMap(acc) + LastWins(SafePairs(rest))
    decreases |rest|
  {
    if |rest| > 0 {
      var e := rest[0].1;
      assert [(e.key, e.safeValue)][1..] == [];
      assert ([(e.key, e.safeValue)] + SafePairs(rest[1..]))[1..] == SafePairs(rest[1..]);
      SimpleIntoMap(Put(acc, e.key, e.safeValue), rest[1..]);
      AssignStepMaps(ToMap(acc), e.key, e.safeValue, LastWins(SafePairs(rest[1..])));
    } else {
      assert LastWins(SafePairs(rest)) == map[];
    }
  }

  /** The simple map is the later-wins map of the entries' own keys and safe
      values, and nothing else. */
  lemma SimpleMapIsLastWins<V>(entries: Object<Entry<V>>)
    ensures ToMap(ToSimpleMap(entries)) == LastWins(SafePairs(entries))
  {
    SimpleIntoMap([], entries);
    assert ToMap<V>([]) == map[];
  }

  /** Entries stored under their own key, as the collector builds them. */
  predicate KeyedByOwnKey<V>(entries: Object<Entry<V>>) {
    forall i :: 0 <= i < |entries| ==> entries[i].1.key == entries[i].0
  }

  /** Over collected entries the simple map has the same keys, in the same
      order, each mapped to its entry's safe value. */
  lemma {:induction false} SimpleMapOfCollected<V>(entries: Object<Entry<V>>)
    requires DistinctKeys(entries) && KeyedByOwnKey(entries)
    ensures |ToSimpleMap(entries)| == |entries|
    ensures forall i :: 0 <= i < |entries| ==> ToSimpleMap(entries)[i] == (entries[i].0, entries[i].1.safeValue)
  {
    SimpleIntoAppends([], entries);
    assert [] + SafePairs(entries) == SafePairs(entries);
    SafePairsAt(entries);
  }

  lemma {:induction false} SimpleIntoAppends<V>(acc: Object<V>, rest: Object<Entry<V>>)
    requires DistinctKeys(rest) && KeyedByOwnKey(rest) && KeySet(acc) !! KeySet(rest)
    ensures SimpleInto(acc, rest) == acc + SafePairs(rest)
    decreases |rest|
  {
    if |rest| == 0 {
      assert acc + [] == acc;
    } else {
      var key, e, tail := rest[0].0, rest[0].1, rest[1..];
      var pair: (string, V) := (key, e.safeValue);
      var next := acc + [pair];
      SimpleIntoStep(acc, rest);
      CopyFirstFresh(acc, rest, e.safeValue);
      OwnKeysOfTail(rest);
      SimpleIntoAppends(next, tail);
      ConcatShift(acc, pair, SafePairs(tail));
    }
  }

  /** One step of the projection, for an entry keyed by its own key. */
  lemma SimpleIntoStep<V>(acc: Object<V>, rest: Object<Entry<V>>)
    requires |rest| > 0 && KeyedByOwnKey(rest)
    ensures SimpleInto(acc, rest) == SimpleInto(Put(acc, rest[0].0, rest[0].1.safeValue), rest[1..])
    ensures SafePairs(rest) == [(rest[0].0, rest[0].1.safeValue)] + SafePairs(rest[1..])
  {
    assert rest[0].1.key == rest[0].0;
  }

  lemma OwnKeysOfTail<V>(rest: Object<Entry<V>>)
    requires |rest| > 0 && KeyedByOwnKey(rest)
    ensures KeyedByOwnKey(rest[1..])
  {
    forall i | 0 <= i < |rest| - 1
      ensures rest[1..][i].1.key == rest[1..][i].0
    {
      assert rest[1..][i] == rest[i + 1];
    }
  }

  /** The number of entries with the given source. */
  function CountSource<V>(entries: Object<Entry<V>>, source: string): nat
    decreases |entries|
  {
    if |entries| == 0 then 0
    else (if entries[0].1.source == source then 1 else 0) + CountSource(entries[1..], source)
  }

  /** The sources that occur among the entries. */
  function Sources<V>(entries: Object<Entry<V>>): set<string>
    decreases |entries|
  {
    if |entries| == 0 then {} else {entries[0].1.source} + Sources(entries[1..])
  }

  /** The sum of the counts. */
  function Total(stats: Object<nat>): nat
    decreases |stats|
  {
    if |stats| == 0 then 0 else stats[0].1 + Total(stats[1..])
  }

  /** The loop of `getSourceStats`: `stats[source] = (stats[source] || 0) + 1`. */
  function StatsInto<V>(acc: Object<nat>, rest: Object<Entry<V>>): Object<nat>
    decreases |rest|
  {
    if |rest| == 0 then acc
    else
      StatsInto(Increment(acc, rest[0].1.source), rest[1..])
  }

  /** `stats[source] = (stats[source] || 0) + 1`: a count is never 0, so the
      `|| 0` only supplies the start for a new source. */
  function Increment(stats: Object<nat>, source: string): Object<nat> {
    Put<nat>(stats, source, Lookup<nat>(stats, source).GetOr(0) + 1)
  }

  /** `getSourceStats`. */
  function GetSourceStats<V>(entries: Object<Entry<V>>): (r: Object<nat>)
    ensures DistinctKeys(r)
  {
    StatsIntoDistinct([], entries);
    StatsInto([], entries)
  }

  lemma {:induction false} StatsIntoDistinct<V>(acc: Object<nat>, rest: Object<Entry<V>>)
    ensures DistinctKeys(acc) ==> DistinctKeys(StatsInto(acc, rest))
    decreases |rest|
  {
    if |rest| > 0 {
      var source := rest[0].1.source;
      PutKeepsKeysDistinct<nat>(acc, source, Lookup<nat>(acc, source).GetOr(0) + 1);
      StatsIntoDistinct(Increment(acc, source), rest[1..]);
    }
  }

  /** Incrementing one count leaves the others alone. */
  lemma LookupIncrement(m: Object<nat>, k: string, key: string)
    ensures Lookup<nat>(Increment(m, k), key).GetOr(0) == Lookup<nat>(m, key).GetOr(0) + (if key == k then 1 else 0)
  {
    var count := Lookup<nat>(m, k).GetOr(0) + 1;
    assert Increment(m, k) == Put<nat>(m, k, count);
    LookupPut<nat>(m, k, count, key);
  }

  /** Incrementing one count raises the total by one. */
  lemma {:induction false} IncrementTotal(m: Object<nat>, k: string)
    ensures Total(Increment(m, k)) == Total(m) + 1
    decreases |m|
  {
    if |m| > 0 {
      var head, tail := m[0], m[1..];
      if head.0 == k {
        IncrementHere(m, k);
        TotalCons((k, head.1 + 1), tail);
      } else {
        IncrementLater(m, k);
        IncrementTotal(tail, k);
        TotalCons(head, Increment(tail, k));
      }
    }
  }

  /** Incrementing the first key replaces its count. */
  lemma IncrementHere(m: Object<nat>, k: string)
    requires |m| > 0 && m[0].0 == k
    ensures Increment(m, k) == [(k, m[0].1 + 1)] + m[1..]
  {
    assert Lookup<nat>(m, k) == Some(m[0].1);
  }

  /** Incrementing a later key leaves the first count in place. */
  lemma IncrementLater(m: Object<nat>, k: string)
    requires |m| > 0 && m[0].0 != k
    ensures Increment(m, k) == [m[0]] + Increment(m[1..], k)
  {
    assert Lookup<nat>(m, k) == Lookup<nat>(m[1..], k);
  }

  lemma TotalCons(x: (string, nat), rest: Object<nat>)
    ensures Total([x] + rest) == x.1 + Total(rest)
  {
    assert ([x] + rest)[0] == x && ([x] + rest)[1..] == rest;
  }

  lemma {:induction false} StatsIntoCounts<V>(acc: Object<nat>, rest: Object<Entry<V>>, source: string)
    ensures Lookup<nat>(StatsInto(acc, rest), source).GetOr(0) == Lookup<nat>(acc, source).GetOr(0) + CountSource(rest, source)
    decreases |rest|
  {
    if |rest| > 0 {
      var s := rest[0].1.source;
      var next := Increment(acc, s);
      assert StatsInto(acc, rest) == StatsInto(next, rest[1..]);
      assert CountSource(rest, source) == (if s == source then 1 else 0) + CountSource(rest[1..], source);
      StatsIntoCounts(next, rest[1..], source);
      LookupIncrement(acc, s, source);
    }
  }

  lemma {:induction false} StatsIntoKeys<V>(acc: Object<nat>, rest: Object<Entry<V>>)
    ensures KeySet(StatsInto(acc, rest)) == KeySet(acc) + Sources(rest)
    decreases |rest|
  {
    if |rest| > 0 {
      var s := rest[0].1.source;
      StatsIntoKeys(Increment(acc, s), rest[1..]);
    }
  }

  lemma {:induction false} StatsIntoTotal<V>(acc: Object<nat>, rest: Object<Entry<V>>)
    ensures Total(StatsInto(acc, rest)) == Total(acc) + |rest|
    decreases |rest|
  {
    if |rest| > 0 {
      var s := rest[0].1.source;
      StatsIntoTotal(Increment(acc, s), rest[1..]);
      IncrementTotal(acc, s);
    }
  }

  /** `getSourceStats` counts, for each source, exactly the entries with that
      source; a source with no entries is absent; the counts add up to the
      number of entries. */
  lemma SourceStatsCount<V>(entries: Object<Entry<V>>, source: string)
    ensures Lookup<nat>(GetSourceStats(entries), source).GetOr(0) == CountSource(entries, source)
    ensures source in KeySet(GetSourceStats(entries)) <==> source in Sources(entries)
    ensures Total(GetSourceStats(entries)) == |entries|
  {
    StatsIntoCounts([], entries, source);
    StatsIntoKeys([], entries);
    StatsIntoTotal([], entries);
  }

  /** A source occurs among the entries exactly when it counts at least one. */
  lemma {:induction false} SourcesAreCounted<V>(entries: Object<Entry<V>>, source: string)
    ensures source in Sources(entries) <==> CountSource(entries, source) > 0
    decreases |entries|
  {
    if |entries| > 0 {
      SourcesAreCounted(entries[1..], source);
    }
  }
}

=== FILE: engine.dfy ===
/** The drift-detection engine (drift-detection-engine/src/driftDetector.js):
    three independent detectors over a declared and a runtime configuration,
    run in a fixed order on the rules applicable to the environment. */
module Engine {
  import opened Wrappers
  import opened Text
  import opened Values
  import opened Objects
  import opened Patterns
  import opened Rules

  /** A flat configuration: dot-joined keys to scalar values, in entry order. */
  type ConfigMap = Object<Value>

  datatype DriftType = Missing | Overridden | Unsafe

  /** A finding. The human-readable explanation is not modelled. */
  datatype Drift = Drift(
    driftType: DriftType,
    severity: Severity,
    configKey: string,
    expectedValue: Value,
    actualValue: Value,
    ruleKey: string)

  const REQUIRED_MARKER: string := "(required)"
  const NOT_IN_PROD_MARKER: string := "(not allowed in production)"

  /** Position of a drift type in the output. */
  function TypeRank(t: DriftType): nat {
    match t
    case Missing => 0
    case Overridden => 1
    case Unsafe => 2
  }

  // ---------------------------------------------------------------- MISSING

  /** Some runtime key matches the pattern; the key's value plays no part. */
  predicate HasMatchingKey(runtime: ConfigMap, pattern: Pattern) {
    exists i :: 0 <= i < |runtime| && Matches(runtime[i].0, pattern)
  }

  /** A required rule that no runtime key satisfies. */
  predicate Unmet(runtime: ConfigMap, rule: Rule) {
    rule.required && !HasMatchingKey(runtime, rule.key)
  }

  function MissingDrift(rule: Rule): Drift {
    Drift(Missing, High, rule.key, VStr(REQUIRED_MARKER), VNull, rule.key)
  }

  /** `detectMissingConfigs`: MISSING drifts, HIGH, expected `"(required)"`, actual
      `null`, reported under the rule's own pattern. */
  function DetectMissing(runtime: ConfigMap, rules: seq<Rule>): (r: seq<Drift>)
    ensures forall i :: 0 <= i < |r| ==>
              && r[i].driftType == Missing && r[i].severity == High
              && r[i].expectedValue == VStr(REQUIRED_MARKER)
              && r[i].actualValue == VNull && r[i].configKey == r[i].ruleKey
    ensures |r| <= |rules|
    decreases |rules|
  {
    if |rules| == 0 then []
    else
      (if rules[0].required && !HasMatchingKey(runtime, rules[0].key) then [MissingDrift(rules[0])] else [])
      + DetectMissing(runtime, rules[1..])
  }

  /** Exactly the unmet required rules are reported: every MISSING drift comes from
      one, and every one yields its drift. Non-required rules never do. */
  lemma {:induction false} MissingExact(runtime: ConfigMap, rules: seq<Rule>)
    ensures forall d :: d in DetectMissing(runtime, rules)
                        ==> exists rule :: rule in rules && Unmet(runtime, rule) && d == MissingDrift(rule)
    ensures forall rule :: rule in rules && Unmet(runtime, rule) ==> MissingDrift(rule) in DetectMissing(runtime, rules)
    decreases |rules|
  {
    if |rules| > 0 {
      MissingExact(runtime, rules[1..]);
      assert forall rule :: rule in rules ==> rule == rules[0] || rule in rules[1..];
    }
  }

  lemma {:induction false} MissingConcat(runtime: ConfigMap, a: seq<Rule>, b: seq<Rule>)
    ensures DetectMissing(runtime, a + b) == DetectMissing(runtime, a) + DetectMissing(runtime, b)
    decreases |a|
  {
    if |a| == 0 {
      assert a + b == b;
    } else {
      assert (a + b)[1..] == a[1..] + b;
      MissingConcat(runtime, a[1..], b);
    }
  }

  /** Each rule contributes, at its own position, exactly one MISSING drift when it
      is required and unmet, and nothing otherwise. Overlapping rules are not
      merged: each unmet one is reported. */
  lemma MissingPerRule(runtime: ConfigMap, pre: seq<Rule>, rule: Rule, post: seq<Rule>)
    ensures DetectMissing(runtime, pre + [rule] + post)
         == DetectMissing(runtime, pre)
            + (if Unmet(runtime, rule) then [MissingDrift(rule)] else [])
            + DetectMissing(runtime, post)
  {
    MissingConcat(runtime, pre + [rule], post);
    MissingConcat(runtime, pre, [rule]);
    assert [rule][1..] == [];
  }

  /** A key that is present with the value `null` still satisfies a required rule. */
  lemma NullValueCountsAsPresent(runtime: ConfigMap, rules: seq<Rule>, key: string, rule: Rule)
    requires (key, VNull) in runtime && Matches(key, rule.key)
    ensures MissingDrift(rule) !in DetectMissing(runtime, rules)
  {
    MissingExact(runtime, rules);
    var i :| 0 <= i < |runtime| && runtime[i] == (key, VNull);
    assert Matches(runtime[i].0, rule.key);
  }

  // ------------------------------------------------------------- OVERRIDDEN

  /** The runtime entry is an override: its first matching rule is CI_ONLY and the
      key is either absent from the declared configuration or declared with a
      value of a different string form. */
  predicate IsOverride(declared: ConfigMap, e: (string, Value), rules: seq<Rule>) {
    var rule := FindRule(e.0, rules);
    var declaredValue := Lookup(declared, e.0);
    && rule.Some?
    && rule.value.changePolicy == CI_ONLY
    && (declaredValue.None? || ToStr(declaredValue.value) != ToStr(e.1))
  }

  /** The OVERRIDDEN drift for an entry: the expected value is the declared one,
      or `null` when the key is not declared. */
  function OverrideDrift(declared: ConfigMap, e: (string, Value), rules: seq<Rule>): Drift
    requires FindRule(e.0, rules).Some?
  {
    Drift(Overridden, Medium, e.0, Lookup(declared, e.0).GetOr(VNull), e.1, FindRule(e.0, rules).value.key)
  }

  /** The loop body of `detectOverriddenConfigs` for one runtime entry. */
  function OverrideFor(declared: ConfigMap, key: string, runtimeValue: Value, rules: seq<Rule>): seq<Drift> {
    match FindRule(key, rules)
    case None => []
    case Some(rule) =>
      if rule.changePolicy == RUNTIME_ALLOWED then []
      else
        match Lookup(declared, key)
        case None =>
          if rule.changePolicy == CI_ONLY
          then [Drift(Overridden, Medium, key, VNull, runtimeValue, rule.key)] else []
        case Some(declaredValue) =>
          if ToStr(declaredValue) != ToStr(runtimeValue) && rule.changePolicy == CI_ONLY
          then [Drift(Overridden, Medium, key, declaredValue, runtimeValue, rule.key)] else []
  }

  /** `detectOverriddenConfigs`: OVERRIDDEN drifts of MEDIUM severity; with no
      rules there are none. */
  function DetectOverridden(declared: ConfigMap, runtime: ConfigMap, rules: seq<Rule>): (r: seq<Drift>)
    ensures forall i :: 0 <= i < |r| ==> r[i].driftType == Overridden && r[i].severity == Medium
    ensures |r| <= |runtime|
    ensures |rules| == 0 ==> r == []
    decreases |runtime|
  {
    if |runtime| == 0 then []
    else OverrideFor(declared, runtime[0].0, runtime[0].1, rules) + DetectOverridden(declared, runtime[1..], rules)
  }

  /** Exactly the overriding runtime entries are reported, each with its declared
      value (or `null`) as expected value and its runtime value as actual value. */
  lemma {:induction false} OverriddenExact(declared: ConfigMap, runtime: ConfigMap, rules: seq<Rule>)
    ensures forall d :: d in DetectOverridden(declared, runtime, rules)
                        ==> exists e :: e in runtime && IsOverride(declared, e, rules) && d == OverrideDrift(declared, e, rules)
    ensures forall e :: e in runtime && IsOverride(declared, e, rules)
                        ==> OverrideDrift(declared, e, rules) in DetectOverridden(declared, runtime, rules)
    decreases |runtime|
  {
    if |runtime| > 0 {
      var e := runtime[0];
      OverriddenExact(declared, runtime[1..], rules);
      OverrideForIsOverride(declared, e, rules);
      assert forall x :: x in runtime ==> x == e || x in runtime[1..];
    }
  }

  /** The loop body reports an entry exactly when it is an override. */
  lemma OverrideForIsOverride(declared: ConfigMap, e: (string, Value), rules: seq<Rule>)
    ensures OverrideFor(declared, e.0, e.1, rules)
         == if IsOverride(declared, e, rules) then [OverrideDrift(declared, e, rules)] else []
  {
  }

  lemma OverriddenSingle(declared: ConfigMap, e: (string, Value), rules: seq<Rule>)
    ensures DetectOverridden(declared, [e], rules) == OverrideFor(declared, e.0, e.1, rules)
  {
    assert [e][1..] == [];
  }

  lemma {:induction false} OverriddenConcat(declared: ConfigMap, a: ConfigMap, b: ConfigMap, rules: seq<Rule>)
    ensures DetectOverridden(declared, a + b, rules)
         == DetectOverridden(declared, a, rules) + DetectOverridden(declared, b, rules)
    decreases |a|
  {
    if |a| == 0 {
      assert a + b == b;
    } else {
      assert (a + b)[1..] == a[1..] + b;
      OverriddenConcat(declared, a[1..], b, rules);
    }
  }

  /** Each runtime entry contributes, at its own position, exactly one OVERRIDDEN
      drift when it is an override and nothing otherwise. */
  lemma OverridePerEntry(declared: ConfigMap, pre: ConfigMap, e: (string, Value), post: ConfigMap, rules: seq<Rule>)
    ensures DetectOverridden(declared, pre + [e] + post, rules)
         == DetectOverridden(declared, pre, rules)
            + (if IsOverride(declared, e, rules) then [OverrideDrift(declared, e, rules)] else [])
            + DetectOverridden(declared, post, rules)
  {
    OverriddenConcat(declared, pre + [e], post, rules);
    OverriddenConcat(declared, pre, [e], rules);
    OverriddenSingle(declared, e, rules);
    OverrideForIsOverride(declared, e, rules);
  }

  /** Equal string forms never give an override (`10000` against `"10000"`). */
  lemma SameStringFormNoOverride(declared: ConfigMap, e: (string, Value), rules: seq<Rule>)
    requires Lookup(declared, e.0).Some? && ToStr(Lookup(declared, e.0).value) == ToStr(e.1)
    ensures DetectOverridden(declared, [e], rules) == []
  {
    assert [e][1..] == [];
  }

  /** A key whose first matching rule is not CI_ONLY, or that no rule matches, is
      never reported as overridden, whatever its values. */
  lemma NonCiOnlyNoOverride(declared: ConfigMap, e: (string, Value), rules: seq<Rule>)
    requires FindRule(e.0, rules).None? || FindRule(e.0, rules).value.changePolicy != CI_ONLY
    ensures DetectOverridden(declared, [e], rules) == []
  {
    assert [e][1..] == [];
  }

  // ----------------------------------------------------------------- UNSAFE

  datatype UnsafeKind = ProdRestricted | BelowMin | AboveMax

  /** The "disabled" values the production check lets through. */
  predicate IsDisabledSentinel(v: Value) {
    v == VNull || v == VBool(false) || v == VStr("false") || v == VStr("0")
  }

  /** The three independent unsafe conditions on a value under its rule. Bounds are
      compared strictly, on the value's numeric reading. */
  predicate Violates(kind: UnsafeKind, value: Value, rule: Rule, env: string) {
    match kind
    case ProdRestricted => IsProdEnv(env) && !rule.allowedInProd && !IsDisabledSentinel(value)
    case BelowMin =>
      value != VNull && rule.minValue.Some? && ParseNum(value).Some?
      && ParseNum(value).value < rule.minValue.value
    case AboveMax =>
      value != VNull && rule.maxValue.Some? && ParseNum(value).Some?
      && ParseNum(value).value > rule.maxValue.value
  }

  /** A bound as a template literal shows it. */
  function ShowBound(b: Option<int>): string {
    match b
    case None => "null"
    case Some(n) => IntToDecimal(n)
  }

  /** The UNSAFE drift for one condition: CRITICAL for the production check, HIGH
      for a bound, whose expected value names the bound. */
  function UnsafeDrift(kind: UnsafeKind, key: string, value: Value, rule: Rule): Drift {
    match kind
    case ProdRestricted => Drift(Unsafe, Critical, key, VStr(NOT_IN_PROD_MARKER), value, rule.key)
    case BelowMin => Drift(Unsafe, High, key, VStr("min: " + ShowBound(rule.minValue)), value, rule.key)
    case AboveMax => Drift(Unsafe, High, key, VStr("max: " + ShowBound(rule.maxValue)), value, rule.key)
  }

  function UnsafeIf(kind: UnsafeKind, key: string, value: Value, rule: Rule, env: string): seq<Drift> {
    if Violates(kind, value, rule, env) then [UnsafeDrift(kind, key, value, rule)] else []
  }

  /** The loop body of `detectUnsafeConfigs` for one entry and its rule. */
  function UnsafeFor(key: string, value: Value, rule: Rule, env: string): (r: seq<Drift>)
    ensures |r| <= 3
    ensures forall i :: 0 <= i < |r| ==> r[i].driftType == Unsafe && r[i].severity in {Critical, High}
  {
    var critical :=
      if IsProdEnv(env) && !rule.allowedInProd && value != VNull
         && value != VBool(false) && value != VStr("false") && value != VStr("0")
      then [UnsafeDrift(ProdRestricted, key, value, rule)] else [];
    var bounds :=
      if value != VNull && (rule.minValue.Some? || rule.maxValue.Some?) then
        match ParseNum(value)
        case None => []
        case Some(n) =>
          (if rule.minValue.Some? && n < rule.minValue.value
           then [UnsafeDrift(BelowMin, key, value, rule)] else [])
          + (if rule.maxValue.Some? && n > rule.maxValue.value
             then [UnsafeDrift(AboveMax, key, value, rule)] else [])
      else [];
    critical + bounds
  }

  /** For one entry: the production check, then the minimum, then the maximum, each
      reported exactly when its condition holds. */
  lemma UnsafeForExact(key: string, value: Value, rule: Rule, env: string)
    ensures UnsafeFor(key, value, rule, env)
         == UnsafeIf(ProdRestricted, key, value, rule, env)
            + UnsafeIf(BelowMin, key, value, rule, env)
            + UnsafeIf(AboveMax, key, value, rule, env)
  {
  }

  /** The entry has a matching rule and violates condition `kind` under it. */
  predicate IsUnsafe(e: (string, Value), rules: seq<Rule>, env: string, kind: UnsafeKind) {
    FindRule(e.0, rules).Some? && Violates(kind, e.1, FindRule(e.0, rules).value, env)
  }

  function EntryUnsafe(e: (string, Value), rules: seq<Rule>, env: string): (r: seq<Drift>)
    ensures |r| <= 3
    ensures forall i :: 0 <= i < |r| ==> r[i].driftType == Unsafe && r[i].severity in {Critical, High}
    ensures |rules| == 0 ==> r == []
  {
    match FindRule(e.0, rules)
    case None => []
    case Some(rule) => UnsafeFor(e.0, e.1, rule, env)
  }

  /** For one entry: its drifts are exactly its violated conditions. */
  lemma EntryUnsafeExact(e: (string, Value), rules: seq<Rule>, env: string)
    ensures forall d :: d in EntryUnsafe(e, rules, env)
                        ==> exists kind :: IsUnsafe(e, rules, env, kind)
                                           && d == UnsafeDrift(kind, e.0, e.1, FindRule(e.0, rules).value)
    ensures forall kind :: IsUnsafe(e, rules, env, kind)
                           ==> UnsafeDrift(kind, e.0, e.1, FindRule(e.0, rules).value) in EntryUnsafe(e, rules, env)
  {
    var found := FindRule(e.0, rules);
    if found.Some? {
      var rule := found.value;
      UnsafeForMembers(e.0, e.1, rule, env);
      forall d | d in EntryUnsafe(e, rules, env)
        ensures exists kind :: IsUnsafe(e, rules, env, kind)
                               && d == UnsafeDrift(kind, e.0, e.1, FindRule(e.0, rules).value)
      {
        assert d in UnsafeFor(e.0, e.1, rule, env);
        var kind :| Violates(kind, e.1, rule, env) && d == UnsafeDrift(kind, e.0, e.1, rule);
        assert IsUnsafe(e, rules, env, kind);
      }
    }
  }

  /** The drifts of one entry under its rule are exactly its violated conditions. */
  lemma UnsafeForMembers(key: string, value: Value, rule: Rule, env: string)
    ensures forall d :: d in UnsafeFor(key, value, rule, env)
                        ==> exists kind :: Violates(kind, value, rule, env) && d == UnsafeDrift(kind, key, value, rule)
    ensures forall kind :: Violates(kind, value, rule, env) ==> UnsafeDrift(kind, key, value, rule) in UnsafeFor(key, value, rule, env)
  {
    UnsafeForExact(key, value, rule, env);
    var s1, s2, s3 := UnsafeIf(ProdRestricted, key, value, rule, env),
                      UnsafeIf(BelowMin, key, value, rule, env),
                      UnsafeIf(AboveMax, key, value, rule, env);
    forall d | d in UnsafeFor(key, value, rule, env)
      ensures exists kind :: Violates(kind, value, rule, env) && d == UnsafeDrift(kind, key, value, rule)
    {
      assert d in s1 || d in s2 || d in s3;
      if d in s1 {
        assert Violates(ProdRestricted, value, rule, env) && d == UnsafeDrift(ProdRestricted, key, value, rule);
      } else if d in s2 {
        assert Violates(BelowMin, value, rule, env) && d == UnsafeDrift(BelowMin, key, value, rule);
      } else {
        assert Violates(AboveMax, value, rule, env) && d == UnsafeDrift(AboveMax, key, value, rule);
      }
    }
  }

  /** `detectUnsafeConfigs`: UNSAFE drifts, CRITICAL or HIGH; with no rules there
      are none. */
  function DetectUnsafe(runtime: ConfigMap, rules: seq<Rule>, env: string): (r: seq<Drift>)
    ensures forall i :: 0 <= i < |r| ==> r[i].driftType == Unsafe && r[i].severity in {Critical, High}
    ensures |r| <= 3 * |runtime|
    ensures |rules| == 0 ==> r == []
    decreases |runtime|
  {
    if |runtime| == 0 then []
    else EntryUnsafe(runtime[0], rules, env) + DetectUnsafe(runtime[1..], rules, env)
  }

  /** Exactly the violated conditions are reported: every UNSAFE drift is one
      condition of one entry under that entry's first matching rule, and every
      violated condition yields its drift. */
  lemma {:induction false} UnsafeExact(runtime: ConfigMap, rules: seq<Rule>, env: string)
    ensures forall d :: d in DetectUnsafe(runtime, rules, env)
                        ==> exists e, kind :: e in runtime && IsUnsafe(e, rules, env, kind)
                                              && d == UnsafeDrift(kind, e.0, e.1, FindRule(e.0, rules).value)
    ensures forall e, kind :: e in runtime && IsUnsafe(e, rules, env, kind)
                              ==> UnsafeDrift(kind, e.0, e.1, FindRule(e.0, rules).value) in DetectUnsafe(runtime, rules, env)
    decreases |runtime|
  {
    if |runtime| > 0 {
      var e := runtime[0];
      UnsafeExact(runtime[1..], rules, env);
      EntryUnsafeExact(e, rules, env);
      assert forall x :: x in runtime ==> x == e || x in runtime[1..];
    }
  }

  lemma UnsafeSingle(e: (string, Value), rules: seq<Rule>, env: string)
    ensures DetectUnsafe([e], rules, env) == EntryUnsafe(e, rules, env)
  {
    assert [e][1..] == [];
  }

  lemma {:induction false} UnsafeConcat(a: ConfigMap, b: ConfigMap, rules: seq<Rule>, env: string)
    ensures DetectUnsafe(a + b, rules, env) == DetectUnsafe(a, rules, env) + DetectUnsafe(b, rules, env)
    decreases |a|
  {
    if |a| == 0 {
      assert a + b == b;
    } else {
      assert (a + b)[1..] == a[1..] + b;
      UnsafeConcat(a[1..], b, rules, env);
    }
  }

  /** Each runtime entry with a matching rule contributes, at its own position,
      exactly the drifts `UnsafeFor` gives it (see `UnsafeForExact`). */
  lemma UnsafePerEntry(pre: ConfigMap, e: (string, Value), post: ConfigMap, rules: seq<Rule>, env: string)
    requires FindRule(e.0, rules).Some?
    ensures DetectUnsafe(pre + [e] + post, rules, env)
         == DetectUnsafe(pre, rules, env)
            + UnsafeFor(e.0, e.1, FindRule(e.0, rules).value, env)
            + DetectUnsafe(post, rules, env)
  {
    UnsafeConcat(pre + [e], post, rules, env);
    UnsafeConcat(pre, [e], rules, env);
    UnsafeSingle(e, rules, env);
  }

  /** Under a non-allowed rule in production, numeric 0 and `true` are flagged;
      `null`, `false`, `"false"` and `"0"` are not. */
  lemma ProductionSentinels(rule: Rule, env: string)
    requires IsProdEnv(env) && !rule.allowedInProd
    ensures Violates(ProdRestricted, VNum(0), rule, env)
    ensures Violates(ProdRestricted, VBool(true), rule, env)
    ensures Violates(ProdRestricted, VStr("off"), rule, env)
    ensures !Violates(ProdRestricted, VNull, rule, env)
    ensures !Violates(ProdRestricted, VBool(false), rule, env)
    ensures !Violates(ProdRestricted, VStr("false"), rule, env)
    ensures !Violates(ProdRestricted, VStr("0"), rule, env)
  {
  }

  /** A value equal to a bound, a value with no numeric reading, and a rule with
      neither bound all give no bound drift. */
  lemma BoundEdges(key: string, value: Value, rule: Rule, env: string)
    ensures ParseNum(value) == rule.minValue ==> UnsafeIf(BelowMin, key, value, rule, env) == []
    ensures ParseNum(value) == rule.maxValue ==> UnsafeIf(AboveMax, key, value, rule, env) == []
    ensures ParseNum(value).None?
            ==> UnsafeIf(BelowMin, key, value, rule, env) == [] && UnsafeIf(AboveMax, key, value, rule, env) == []
    ensures rule.minValue.None? && rule.maxValue.None?
            ==> UnsafeFor(key, value, rule, env) == UnsafeIf(ProdRestricted, key, value, rule, env)
  {
    UnsafeForExact(key, value, rule, env);
  }

  // -------------------------------------------------------------- AGGREGATE

  /** `detectDrift`: filter the rules by environment, then MISSING drifts, then
      OVERRIDDEN drifts, then UNSAFE drifts. */
  function DetectDrift(declared: ConfigMap, runtime: ConfigMap, rules: seq<Rule>, env: string): (r: seq<Drift>)
    ensures |rules| == 0 ==> r == []
    ensures forall i, j :: 0 <= i < j < |r| ==> TypeRank(r[i].driftType) <= TypeRank(r[j].driftType)
  {
    var applicable := Applicable(rules, env);
    DetectMissing(runtime, applicable)
    + DetectOverridden(declared, runtime, applicable)
    + DetectUnsafe(runtime, applicable, env)
  }

  /** The environment `detectDrift` assumes when none is given. */
  const DEFAULT_ENVIRONMENT: string := "prod"

  /** A call of `detectDrift` as JavaScript allows it. Either map may be `null` or
      `undefined` (`None`), and the rules and the environment may be omitted or
      `undefined` (`None`), defaulting to no rules and to `prod`; an explicit
      `null` environment is not among the inputs. A missing runtime map raises
      a TypeError whatever the rules, and so does a missing declared map once the
      runtime map has an entry; `None` as the result is that error. A missing
      declared map with an empty runtime map is never read. */
  function DetectDriftCall(declared: Option<ConfigMap>, runtime: Option<ConfigMap>,
                           rules: Option<seq<Rule>>, env: Option<string>): (r: Option<seq<Drift>>)
    ensures r.None? <==> runtime.None? || (declared.None? && |runtime.value| > 0)
    ensures r.Some? && rules.None? ==> r.value == []
    ensures r.Some? && declared.None? ==> r.value == DetectMissing([], Applicable(rules.GetOr([]), env.GetOr(DEFAULT_ENVIRONMENT)))
  {
    if runtime.None? || (declared.None? && |runtime.value| > 0) then None
    else Some(DetectDrift(declared.GetOr([]), runtime.value, rules.GetOr([]), env.GetOr(DEFAULT_ENVIRONMENT)))
  }

  /** Omitting the environment is asking for the production checks. */
  lemma OmittedEnvironmentIsProduction(declared: Option<ConfigMap>, runtime: Option<ConfigMap>, rules: Option<seq<Rule>>)
    ensures DetectDriftCall(declared, runtime, rules, None) == DetectDriftCall(declared, runtime, rules, Some("prod"))
  {
  }

  lemma FoundRuleIsListed(key: string, rules: seq<Rule>)
    requires FindRule(key, rules).Some?
    ensures FindRule(key, rules).value in rules
  {
    var i :| 0 <= i < |rules| && rules[i] == FindRule(key, rules).value;
  }

  lemma MissingCitesRule(runtime: ConfigMap, rules: seq<Rule>)
    ensures forall d :: d in DetectMissing(runtime, rules) ==> exists rule :: rule in rules && d.ruleKey == rule.key
  {
    MissingExact(runtime, rules);
  }

  lemma OverriddenCitesRule(declared: ConfigMap, runtime: ConfigMap, rules: seq<Rule>)
    ensures forall d :: d in DetectOverridden(declared, runtime, rules) ==> exists rule :: rule in rules && d.ruleKey == rule.key
  {
    OverriddenExact(declared, runtime, rules);
    forall d | d in DetectOverridden(declared, runtime, rules)
      ensures exists rule :: rule in rules && d.ruleKey == rule.key
    {
      var e :| e in runtime && IsOverride(declared, e, rules) && d == OverrideDrift(declared, e, rules);
      FoundRuleIsListed(e.0, rules);
    }
  }

  lemma {:induction false} UnsafeCitesRule(runtime: ConfigMap, rules: seq<Rule>, env: string)
    ensures forall d :: d in DetectUnsafe(runtime, rules, env) ==> exists rule :: rule in rules && d.ruleKey == rule.key
    decreases |runtime|
  {
    if |runtime| > 0 {
      UnsafeCitesRule(runtime[1..], rules, env);
      EntryUnsafeCitesRule(runtime[0], rules, env);
    }
  }

  lemma EntryUnsafeCitesRule(e: (string, Value), rules: seq<Rule>, env: string)
    ensures forall d :: d in EntryUnsafe(e, rules, env) ==> exists rule :: rule in rules && d.ruleKey == rule.key
  {
    var found := FindRule(e.0, rules);
    if found.Some? {
      FoundRuleIsListed(e.0, rules);
      UnsafeForCitesRule(e.0, e.1, found.value, env);
    }
  }

  /** Every drift of an entry is reported under the entry's rule. */
  lemma UnsafeForCitesRule(key: string, value: Value, rule: Rule, env: string)
    ensures forall d :: d in UnsafeFor(key, value, rule, env) ==> d.ruleKey == rule.key
  {
    UnsafeForExact(key, value, rule, env);
  }

  /** Every drift cites a rule that applies in the environment. */
  lemma DriftsCiteApplicableRules(declared: ConfigMap, runtime: ConfigMap, rules: seq<Rule>, env: string)
    ensures forall d :: d in DetectDrift(declared, runtime, rules, env)
                        ==> exists rule :: rule in rules && AppliesIn(rule, env) && d.ruleKey == rule.key
  {
    var applicable := Applicable(rules, env);
    MissingCitesRule(runtime, applicable);
    OverriddenCitesRule(declared, runtime, applicable);
    UnsafeCitesRule(runtime, applicable, env);
    var m, o, u := DetectMissing(runtime, applicable), DetectOverridden(declared, runtime, applicable),
                   DetectUnsafe(runtime, applicable, env);
    assert DetectDrift(declared, runtime, rules, env) == m + o + u;
    forall d: Drift | d in m + o + u
      ensures exists rule: Rule :: rule in applicable && d.ruleKey == rule.key
    {
      assert d in m || d in o || d in u;
    }
  }

  /** A rule scoped to another environment changes nothing, wherever it sits in
      the rule list. */
  lemma OutOfScopeRuleInert(declared: ConfigMap, runtime: ConfigMap, pre: seq<Rule>, rule: Rule, post: seq<Rule>, env: string)
    requires rule.environment != ALL_ENVIRONMENTS && rule.environment != env
    ensures DetectDrift(declared, runtime, pre + [rule] + post, env) == DetectDrift(declared, runtime, pre + post, env)
  {
    OutOfScopeRuleIgnored(pre, rule, post, env);
  }
}

=== FILE: engine_scenarios.dfy ===
/** Worked scenarios of the engine: the situations its test file
    (drift-detection-engine/src/driftDetector.test.js) describes. */
module EngineScenarios {
  import opened Wrappers
  import opened Text
  import opened Values
  import opened Patterns
  import opened Rules
  import opened Objects
  import opened Engine

  function Options(key: Pattern): RuleOptions {
    RuleOptions(key, None, None, None, None, None, None)
  }

  /** A rule scoped to the environment is the only rule that applies. */
  lemma OnlyRuleApplies(rule: Rule, env: string)
    requires AppliesIn(rule, env)
    ensures Applicable([rule], env) == [rule]
  {
    assert [rule][1..] == [];
  }

  /** A key its rule matches is present, so the rule is never missing. */
  lemma MatchedRuleNotMissing(e: (string, Value), rule: Rule)
    requires Matches(e.0, rule.key)
    ensures DetectMissing([e], [rule]) == []
  {
    assert [rule][1..] == [];
    assert [e][0].0 == e.0;
  }

  /** One runtime entry under one applicable rule that matches it: nothing is
      missing, and the drifts are the entry's override check followed by its unsafe
      checks. */
  lemma OneEntryOneRule(declared: ConfigMap, e: (string, Value), rule: Rule, env: string)
    requires AppliesIn(rule, env) && Matches(e.0, rule.key)
    ensures DetectDrift(declared, [e], [rule], env)
         == OverrideFor(declared, e.0, e.1, [rule]) + UnsafeFor(e.0, e.1, rule, env)
  {
    OnlyRuleApplies(rule, env);
    MatchedRuleNotMissing(e, rule);
    OverriddenSingle(declared, e, [rule]);
    UnsafeSingle(e, [rule], env);
    assert FindRule(e.0, [rule]) == Some(rule) by {
      assert [rule][1..] == [];
    }
  }

  /** A literal (wildcard-free) rule key finds its own rule. */
  lemma OwnRuleFound(key: string, rule: Rule)
    requires '*' !in rule.key && key == rule.key
    ensures FindRule(key, [rule]) == Some(rule)
  {
    LiteralPatternMatchesOnlyItself(key, rule.key);
    assert [rule][1..] == [];
  }

  /** The same for the entry named by a literal rule key. */
  lemma EntryUnderOwnRule(declared: ConfigMap, e: (string, Value), rule: Rule, env: string)
    requires AppliesIn(rule, env) && '*' !in rule.key && e.0 == rule.key
    ensures DetectDrift(declared, [e], [rule], env)
         == OverrideFor(declared, e.0, e.1, [rule]) + UnsafeFor(e.0, e.1, rule, env)
  {
    LiteralPatternMatchesOnlyItself(e.0, rule.key);
    OneEntryOneRule(declared, e, rule, env);
  }

  // ------------------------------------------------ a number against a string

  function CiOnlyTimeoutRule(): Rule {
    CreateRule(Options("payment.timeout").(changePolicy := Some(CI_ONLY), environment := Some("*")))
  }

  lemma CiOnlyTimeoutRuleIs()
    ensures CiOnlyTimeoutRule() == Rule("payment.timeout", false, true, None, None, CI_ONLY, ALL_ENVIRONMENTS)
  {
  }

  lemma NumericStringNoOverride()
    ensures OverrideFor([("payment.timeout", VStr("10000"))], "payment.timeout", VNum(10000), [CiOnlyTimeoutRule()]) == []
  {
    var e := ("payment.timeout", VNum(10000));
    var declared := [("payment.timeout", VStr("10000"))];
    CiOnlyTimeoutRuleIs();
    OwnRuleFound(e.0, CiOnlyTimeoutRule());
    assert Lookup(declared, e.0) == Some(VStr("10000"));
    CoercionExamples();
    OverrideForIsOverride(declared, e, [CiOnlyTimeoutRule()]);
  }

  lemma NumericStringSafe()
    ensures UnsafeFor("payment.timeout", VNum(10000), CiOnlyTimeoutRule(), "prod") == []
  {
    CiOnlyTimeoutRuleIs();
    UnsafeForExact("payment.timeout", VNum(10000), CiOnlyTimeoutRule(), "prod");
  }

  /** The string `"10000"` declared and the number `10000` observed under a
      CI_ONLY rule is not an override, and nothing else is reported either. */
  lemma NumberAgainstNumericString()
    ensures DetectDrift([("payment.timeout", VStr("10000"))], [("payment.timeout", VNum(10000))],
                        [CiOnlyTimeoutRule()], "prod") == []
  {
    CiOnlyTimeoutRuleIs();
    EntryUnderOwnRule([("payment.timeout", VStr("10000"))], ("payment.timeout", VNum(10000)), CiOnlyTimeoutRule(), "prod");
    NumericStringNoOverride();
    NumericStringSafe();
  }

  // ---------------------------------------------------- debug in production

  function DebugRule(): Rule {
    CreateRule(Options("debug").(allowedInProd := Some(false), changePolicy := Some(CI_ONLY), environment := Some("prod")))
  }

  lemma DebugRuleIs()
    ensures DebugRule() == Rule("debug", false, false, None, None, CI_ONLY, "prod")
  {
  }

  lemma DebugRuleApplies()
    ensures AppliesIn(DebugRule(), "prod") && '*' !in DebugRule().key && DebugRule().key == "debug"
  {
    DebugRuleIs();
  }

  lemma DebugOverride()
    ensures OverrideFor([("debug", VBool(false))], "debug", VBool(true), [DebugRule()])
         == [Drift(Overridden, Medium, "debug", VBool(false), VBool(true), "debug")]
  {
    var e := ("debug", VBool(true));
    var declared := [("debug", VBool(false))];
    DebugRuleIs();
    OwnRuleFound(e.0, DebugRule());
    assert Lookup(declared, e.0) == Some(VBool(false));
    assert ToStr(VBool(false)) != ToStr(VBool(true));
    OverrideForIsOverride(declared, e, [DebugRule()]);
  }

  lemma DebugUnsafe()
    ensures UnsafeFor("debug", VBool(true), DebugRule(), "prod")
         == [Drift(Unsafe, Critical, "debug", VStr(NOT_IN_PROD_MARKER), VBool(true), "debug")]
  {
    DebugRuleIs();
    assert IsProdEnv("prod") by { assert Lower("prod") == "prod"; }
    UnsafeForExact("debug", VBool(true), DebugRule(), "prod");
  }

  /** `debug = true` under a prod-only CI_ONLY rule that forbids it in production:
      in `prod` the change is an override and the value is CRITICAL. */
  lemma DebugEnabledInProduction()
    ensures DetectDrift([("debug", VBool(false))], [("debug", VBool(true))], [DebugRule()], "prod")
         == [Drift(Overridden, Medium, "debug", VBool(false), VBool(true), "debug"),
             Drift(Unsafe, Critical, "debug", VStr(NOT_IN_PROD_MARKER), VBool(true), "debug")]
  {
    DebugRuleApplies();
    EntryUnderOwnRule([("debug", VBool(false))], ("debug", VBool(true)), DebugRule(), "prod");
    DebugOverride();
    DebugUnsafe();
  }

  /** The same call with the environment omitted runs the production checks. */
  lemma DebugEnabledByDefault()
    ensures DetectDriftCall(Some([("debug", VBool(false))]), Some([("debug", VBool(true))]), Some([DebugRule()]), None)
         == Some([Drift(Overridden, Medium, "debug", VBool(false), VBool(true), "debug"),
                  Drift(Unsafe, Critical, "debug", VStr(NOT_IN_PROD_MARKER), VBool(true), "debug")])
  {
    DebugEnabledInProduction();
  }

  /** The same rule in `staging` does not apply, and nothing is reported. */
  lemma DebugIgnoredOutsideProduction()
    ensures DetectDrift([("debug", VBool(false))], [("debug", VBool(true))], [DebugRule()], "staging") == []
  {
    DebugRuleIs();
    assert Applicable([DebugRule()], "staging") == [] by {
      assert [DebugRule()][1..] == [];
    }
  }

  // ------------------------------------------------------- timeout bounds

  function TimeoutRule(): Rule {
    CreateRule(Options("payment.timeout").(minValue := Some(1000), maxValue := Some(30000), environment := Some("prod")))
  }

  /** The drifts for a lone `payment.timeout` entry under `TimeoutRule` are its
      `UnsafeFor` drifts. */
  lemma TimeoutOnly(v: Value)
    ensures DetectDrift([], [("payment.timeout", v)], [TimeoutRule()], "prod")
         == UnsafeFor("payment.timeout", v, TimeoutRule(), "prod")
  {
    TimeoutRuleIs();
    EntryUnderOwnRule([], ("payment.timeout", v), TimeoutRule(), "prod");
    TimeoutNoOverride(v);
  }

  lemma TimeoutRuleIs()
    ensures TimeoutRule() == Rule("payment.timeout", false, true, Some(1000), Some(30000), RUNTIME_ALLOWED, "prod")
  {
  }

  /** With nothing declared, the entry cannot be an override. */
  lemma TimeoutNoOverride(v: Value)
    ensures OverrideFor([], "payment.timeout", v, [TimeoutRule()]) == []
  {
    TimeoutRuleIs();
    OverrideForIsOverride([], ("payment.timeout", v), [TimeoutRule()]);
  }

  lemma ShowTimeoutBounds()
    ensures ShowBound(Some(1000)) == "1000"
    ensures ShowBound(Some(30000)) == "30000"
  {
    assert NatToDecimal(1) == "1";
    assert NatToDecimal(10) == "10";
    assert NatToDecimal(100) == "100";
    assert NatToDecimal(1000) == "1000";
    assert NatToDecimal(3) == "3";
    assert NatToDecimal(30) == "30";
    assert NatToDecimal(300) == "300";
    assert NatToDecimal(3000) == "3000";
    assert NatToDecimal(30000) == "30000";
  }

  /** Any numeric timeout: one HIGH drift naming the minimum when it is below
      1000, one naming the maximum when it is above 30000; the comparisons are
      strict. */
  lemma TimeoutChecks(n: int)
    ensures DetectDrift([], [("payment.timeout", VNum(n))], [TimeoutRule()], "prod")
         == (if n < 1000 then [Drift(Unsafe, High, "payment.timeout", VStr("min: 1000"), VNum(n), "payment.timeout")] else [])
            + (if n > 30000 then [Drift(Unsafe, High, "payment.timeout", VStr("max: 30000"), VNum(n), "payment.timeout")] else [])
  {
    TimeoutOnly(VNum(n));
    TimeoutBoundDrifts(VNum(n));
    TimeoutUnsafe(n);
  }

  lemma TimeoutUnsafe(n: int)
    ensures UnsafeFor("payment.timeout", VNum(n), TimeoutRule(), "prod")
         == UnsafeIf(BelowMin, "payment.timeout", VNum(n), TimeoutRule(), "prod")
            + UnsafeIf(AboveMax, "payment.timeout", VNum(n), TimeoutRule(), "prod")
  {
    TimeoutRuleIs();
    UnsafeForExact("payment.timeout", VNum(n), TimeoutRule(), "prod");
  }

  /** The drifts the two bounds of `TimeoutRule` give, spelled out. */
  lemma TimeoutBoundDrifts(v: Value)
    ensures UnsafeDrift(BelowMin, "payment.timeout", v, TimeoutRule())
         == Drift(Unsafe, High, "payment.timeout", VStr("min: 1000"), v, "payment.timeout")
    ensures UnsafeDrift(AboveMax, "payment.timeout", v, TimeoutRule())
         == Drift(Unsafe, High, "payment.timeout", VStr("max: 30000"), v, "payment.timeout")
  {
    var rule := TimeoutRule();
    assert rule.key == "payment.timeout" && rule.minValue == Some(1000) && rule.maxValue == Some(30000);
    ShowTimeoutBounds();
    assert "min: " + "1000" == "min: 1000";
    assert "max: " + "30000" == "max: 30000";
  }

  lemma TimeoutBelowMinimum()
    ensures DetectDrift([], [("payment.timeout", VNum(500))], [TimeoutRule()], "prod")
         == [Drift(Unsafe, High, "payment.timeout", VStr("min: 1000"), VNum(500), "payment.timeout")]
  {
    TimeoutChecks(500);
  }

  lemma TimeoutAboveMaximum()
    ensures DetectDrift([], [("payment.timeout", VNum(60000))], [TimeoutRule()], "prod")
         == [Drift(Unsafe, High, "payment.timeout", VStr("max: 30000"), VNum(60000), "payment.timeout")]
  {
    TimeoutChecks(60000);
  }

  /** The bounds themselves are allowed. */
  lemma TimeoutAtBounds()
    ensures DetectDrift([], [("payment.timeout", VNum(1000))], [TimeoutRule()], "prod") == []
    ensures DetectDrift([], [("payment.timeout", VNum(30000))], [TimeoutRule()], "prod") == []
  {
    TimeoutChecks(1000);
    TimeoutChecks(30000);
  }

  function DbAnyRule(): Rule {
    CreateRule(Options("db.*").(required := Some(true)))
  }

  function DbUserRule(): Rule {
    CreateRule(Options("db.user").(required := Some(true)))
  }

  lemma DbRulesAre()
    ensures DbAnyRule() == Rule("db.*", true, true, None, None, RUNTIME_ALLOWED, ALL_ENVIRONMENTS)
    ensures DbUserRule() == Rule("db.user", true, true, None, None, RUNTIME_ALLOWED, ALL_ENVIRONMENTS)
  {
  }

  /** `cache.size` matches neither rule, so both are unmet. */
  lemma CacheSizeUnmatched()
    ensures !Matches("cache.size", DbAnyRule().key) && !Matches("cache.size", DbUserRule().key)
    ensures FindRule("cache.size", [DbAnyRule(), DbUserRule()]) == None
  {
    DbRulesAre();
    assert "cache.size"[0] != "db.*"[0];
    assert "cache.size"[0] != "db.user"[0];
  }

  lemma BothRulesMissing()
    ensures DetectMissing([("cache.size", VNum(64))], [DbAnyRule(), DbUserRule()])
         == [MissingDrift(DbAnyRule()), MissingDrift(DbUserRule())]
  {
    var runtime := [("cache.size", VNum(64))];
    DbRulesAre();
    CacheSizeUnmatched();
    assert !HasMatchingKey(runtime, DbAnyRule().key);
    assert !HasMatchingKey(runtime, DbUserRule().key);
    assert [DbAnyRule(), DbUserRule()][1..] == [DbUserRule()];
    assert [DbUserRule()][1..] == [];
  }

  /** Two overlapping required rules that are both unmet are both reported, in
      rule order; nothing merges them. */
  lemma OverlappingRequiredRules()
    ensures DetectDrift([], [("cache.size", VNum(64))], [DbAnyRule(), DbUserRule()], "prod")
         == [Drift(Missing, High, "db.*", VStr(REQUIRED_MARKER), VNull, "db.*"),
             Drift(Missing, High, "db.user", VStr(REQUIRED_MARKER), VNull, "db.user")]
  {
    var e := ("cache.size", VNum(64));
    var rules := [DbAnyRule(), DbUserRule()];
    DbRulesAre();
    assert Applicable(rules, "prod") == rules;
    BothRulesMissing();
    CacheSizeUnmatched();
    OverriddenSingle([], e, rules);
    UnsafeSingle(e, rules, "prod");
  }

  // ---------------------------------------------------- null against a value

  function NullableRule(): Rule {
    CreateRule(Options("config.key").(changePolicy := Some(CI_ONLY)))
  }

  lemma NullableRuleIs()
    ensures NullableRule() == Rule("config.key", false, true, None, None, CI_ONLY, ALL_ENVIRONMENTS)
  {
  }

  lemma NullOverride()
    ensures OverrideFor([("config.key", VStr("value"))], "config.key", VNull, [NullableRule()])
         == [Drift(Overridden, Medium, "config.key", VStr("value"), VNull, "config.key")]
  {
    var e := ("config.key", VNull);
    var declared := [("config.key", VStr("value"))];
    NullableRuleIs();
    OwnRuleFound(e.0, NullableRule());
    assert Lookup(declared, e.0) == Some(VStr("value"));
    OverrideForIsOverride(declared, e, [NullableRule()]);
  }

  /** A CI_ONLY key observed as `null` while declared as `"value"` is an override. */
  lemma NullAgainstDeclaredValue()
    ensures DetectDrift([("config.key", VStr("value"))], [("config.key", VNull)], [NullableRule()], "prod")
         == [Drift(Overridden, Medium, "config.key", VStr("value"), VNull, "config.key")]
  {
    NullableRuleIs();
    EntryUnderOwnRule([("config.key", VStr("value"))], ("config.key", VNull), NullableRule(), "prod");
    NullOverride();
    NullSafe();
  }

  /** `null` is never unsafe. */
  lemma NullSafe()
    ensures UnsafeFor("config.key", VNull, NullableRule(), "prod") == []
  {
    NullableRuleIs();
    UnsafeForExact("config.key", VNull, NullableRule(), "prod");
  }
}

=== FILE: flatten.dfy ===
/** Baseline flattening (`flattenMap`, config-monitor-server-js/src/services/yamlParser.js):
    a parsed YAML document, a tree of nested mappings, becomes one flat object
    whose keys are the dot-joined paths to the leaves. Only plain mappings are
    descended into; `null`, scalars, arrays and dates are leaves. */
module Flatten {
  import opened Values
  import opened Objects
  import opened Text

  /** A value produced by the YAML loader. */
  datatype Json =
    | Scalar(v: Value)
    | Arr(items: seq<Json>)
    | Date(iso: string)
    | Obj(fields: seq<(string, Json)>)

  /** The path of a child: the key itself at the top level, where the prefix is
      the empty (falsy) string, otherwise `prefix.key`. */
  function Join(prefix: string, key: string): (r: string)
    ensures prefix == "" ==> r == key
    ensures prefix != "" ==> StartsWith(r, prefix + ".") && r[|prefix| + 1..] == key
  {
    if prefix == "" then key else prefix + "." + key
  }

  /** `flattenMap(map, prefix)`: the entries of the mapping in order; a nested
      mapping is flattened under its path and assigned into the result, a leaf is
      assigned under its path. */
  function FlattenMap(fields: seq<(string, Json)>, prefix: string): (r: Object<Json>)
    ensures DistinctKeys(r)
  {
    FlattenFirstDistinct(Obj(fields), |fields|, prefix);
    FlattenFirst(Obj(fields), |fields|, prefix)
  }

  /** The loop of `flattenMap` over mapping `m` after its first `n` entries. */
  function FlattenFirst(m: Json, n: nat, prefix: string): Object<Json>
    requires m.Obj? && n <= |m.fields|
    decreases m, n
  {
    if n == 0 then []
    else
      var acc := FlattenFirst(m, n - 1, prefix);
      var (key, value) := m.fields[n - 1];
      assert m.fields[n - 1] in m.fields;
      if value.Obj? then Assign(acc, FlattenFirst(value, |value.fields|, Join(prefix, key)))
      else Put(acc, Join(prefix, key), value)
  }

  /** Each path is assigned at most once into the result. */
  lemma {:induction false} FlattenFirstDistinct(m: Json, n: nat, prefix: string)
    requires m.Obj? && n <= |m.fields|
    ensures DistinctKeys(FlattenFirst(m, n, prefix))
    decreases m, n
  {
    if n > 0 {
      var k := n - 1;
      FlattenFirstDistinct(m, k, prefix);
      var (key, value) := m.fields[k];
      if value.Obj? {
        UnfoldNested(m, k, prefix, value, Join(prefix, key));
      } else {
        UnfoldLeaf(m, k, prefix);
        PutKeepsKeysDistinct(FlattenFirst(m, k, prefix), Join(prefix, key), value);
      }
    }
  }

  /** The reference: every leaf with its path, in document order, repeated paths
      included. */
  function Leaves(fields: seq<(string, Json)>, prefix: string): (r: seq<(string, Json)>)
    ensures NoNested(r)
  {
    LeavesFirstAreLeaves(Obj(fields), |fields|, prefix);
    LeavesFirst(Obj(fields), |fields|, prefix)
  }

  function LeavesFirst(m: Json, n: nat, prefix: string): seq<(string, Json)>
    requires m.Obj? && n <= |m.fields|
    decreases m, n
  {
    if n == 0 then []
    else
      var (key, value) := m.fields[n - 1];
      assert m.fields[n - 1] in m.fields;
      LeavesFirst(m, n - 1, prefix)
      + (if value.Obj? then LeavesFirst(value, |value.fields|, Join(prefix, key)) else [(Join(prefix, key), value)])
  }

  /** No nested mapping is ever a leaf. */
  lemma {:induction false} LeavesFirstAreLeaves(m: Json, n: nat, prefix: string)
    requires m.Obj? && n <= |m.fields|
    ensures NoNested(LeavesFirst(m, n, prefix))
    decreases m, n
  {
    if n > 0 {
      var k := n - 1;
      var (key, value) := m.fields[k];
      assert m.fields[k] in m.fields;
      LeavesFirstAreLeaves(m, k, prefix);
      if value.Obj? {
        var path := Join(prefix, key);
        UnfoldNested(m, k, prefix, value, path);
        LeavesFirstAreLeaves(value, |value.fields|, path);
        NoNestedConcat(LeavesFirst(m, k, prefix), LeavesFirst(value, |value.fields|, path));
      } else {
        UnfoldLeaf(m, k, prefix);
        NoNestedConcat(LeavesFirst(m, k, prefix), [(Join(prefix, key), value)]);
      }
    }
  }

  /** No value of the stream is a mapping. */
  predicate NoNested(s: seq<(string, Json)>) {
    forall i :: 0 <= i < |s| ==> !s[i].1.Obj?
  }

  lemma NoNestedConcat(a: seq<(string, Json)>, b: seq<(string, Json)>)
    requires NoNested(a) && NoNested(b)
    ensures NoNested(a + b)
  {
    forall i | 0 <= i < |a + b|
      ensures !(a + b)[i].1.Obj?
    {
      if i >= |a| {
        assert (a + b)[i] == b[i - |a|];
      }
    }
  }

  /** What the loop over the first `n` entries of `m` leaves, as a map. */
  ghost function Denotation(m: Json, n: nat, prefix: string): map<string, Json>
    requires m.Obj? && n <= |m.fields|
  {
    ToMap(FlattenFirst(m, n, prefix))
  }

  /** The later-wins map of the leaves of the first `n` entries of `m`. */
  ghost function Reference(m: Json, n: nat, prefix: string): map<string, Json>
    requires m.Obj? && n <= |m.fields|
  {
    LastWins(LeavesFirst(m, n, prefix))
  }

  /** Entry `k` of `m` holds the nested mapping `child`, flattened under `path`. */
  predicate NestedAt(m: Json, k: nat, prefix: string, child: Json, path: string) {
    && m.Obj? && k < |m.fields|
    && child == m.fields[k].1 && child.Obj? && path == Join(prefix, m.fields[k].0)
  }

  /** Entry `k` holding a nested mapping: its flattening is assigned, its leaves
      are appended. The loop states are named `k` and `k + 1` throughout, never
      `n - 1` and `n`, so that facts about the same state share their terms. */
  lemma UnfoldNested(m: Json, k: nat, prefix: string, child: Json, path: string)
    requires NestedAt(m, k, prefix, child, path)
    ensures FlattenFirst(m, k + 1, prefix) == Assign(FlattenFirst(m, k, prefix), FlattenFirst(child, |child.fields|, path))
    ensures LeavesFirst(m, k + 1, prefix) == LeavesFirst(m, k, prefix) + LeavesFirst(child, |child.fields|, path)
  {
  }

  /** Entry `k` holding a leaf: it is put, and appended to the leaves. */
  lemma UnfoldLeaf(m: Json, k: nat, prefix: string)
    requires m.Obj? && k < |m.fields| && !m.fields[k].1.Obj?
    ensures FlattenFirst(m, k + 1, prefix) == Put(FlattenFirst(m, k, prefix), Join(prefix, m.fields[k].0), m.fields[k].1)
    ensures LeavesFirst(m, k + 1, prefix) == LeavesFirst(m, k, prefix) + [(Join(prefix, m.fields[k].0), m.fields[k].1)]
  {
  }

  /** The step for an entry holding a nested mapping: the earlier entries and the
      nested mapping each denote their leaves, so their assignment denotes the
      leaves of both. */
  lemma NestedCombine(m: Json, k: nat, prefix: string, child: Json, path: string)
    requires NestedAt(m, k, prefix, child, path)
    requires Denotation(m, k, prefix) == Reference(m, k, prefix)
    requires Denotation(child, |child.fields|, path) == Reference(child, |child.fields|, path)
    ensures Denotation(m, k + 1, prefix) == Reference(m, k + 1, prefix)
  {
    UnfoldNested(m, k, prefix, child, path);
    FlattenFirstDistinct(child, |child.fields|, path);
    AssignExtendsStream(FlattenFirst(m, k, prefix), LeavesFirst(m, k, prefix),
                        FlattenFirst(child, |child.fields|, path), LeavesFirst(child, |child.fields|, path));
  }

  /** The step for an entry holding a leaf. */
  lemma LeafCombine(m: Json, k: nat, prefix: string)
    requires m.Obj? && k < |m.fields| && !m.fields[k].1.Obj?
    requires Denotation(m, k, prefix) == Reference(m, k, prefix)
    ensures Denotation(m, k + 1, prefix) == Reference(m, k + 1, prefix)
  {
    UnfoldLeaf(m, k, prefix);
    PutExtendsStream(FlattenFirst(m, k, prefix), LeavesFirst(m, k, prefix), Join(prefix, m.fields[k].0), m.fields[k].1);
  }
}

=== FILE: flatten_laws.dfy ===
/** What flattening computes, stated against an independent reference: the
    stream of leaves with their paths. */
module FlattenLaws {
  import opened Values
  import opened Objects
  import opened Text
  import opened Flatten

  /** Flattening the first `n` entries of `m` denotes the later-wins map of their
      leaves; by induction on the entries and on the nesting. */
  lemma {:induction false} FlattenFirstIsLastWins(m: Json, n: nat, prefix: string)
    requires m.Obj? && n <= |m.fields|
    ensures Denotation(m, n, prefix) == Reference(m, n, prefix)
    decreases m, n, 1
  {
    if n > 0 {
      var k := n - 1;
      if m.fields[k].1.Obj? {
        NestedStep(m, k, prefix);
      } else {
        LeafStep(m, k, prefix);
      }
    }
  }

  /** The step for an entry holding a nested mapping: its leaves are assigned
      after the earlier ones. */
  lemma {:induction false} NestedStep(m: Json, k: nat, prefix: string)
    requires m.Obj? && k < |m.fields| && m.fields[k].1.Obj?
    ensures Denotation(m, k + 1, prefix) == Reference(m, k + 1, prefix)
    decreases m, k + 1, 0
  {
    var e := m.fields[k];
    assert e in m.fields;
    var child, path := e.1, Join(prefix, e.0);
    var size := |child.fields|;
    FlattenFirstIsLastWins(m, k, prefix);
    FlattenFirstIsLastWins(child, size, path);
    NestedCombine(m, k, prefix, child, path);
  }

  /** The step for an entry holding a leaf: it is put under its path. */
  lemma {:induction false} LeafStep(m: Json, k: nat, prefix: string)
    requires m.Obj? && k < |m.fields| && !m.fields[k].1.Obj?
    ensures Denotation(m, k + 1, prefix) == Reference(m, k + 1, prefix)
    decreases m, k + 1, 0
  {
    FlattenFirstIsLastWins(m, k, prefix);
    LeafCombine(m, k, prefix);
  }

  /** Flattening assigns the leaves in document order: the result denotes the map
      in which, for each path, the leaf written last wins. */
  lemma FlattenIsLastWinsOfLeaves(fields: seq<(string, Json)>, prefix: string)
    ensures ToMap(FlattenMap(fields, prefix)) == LastWins(Leaves(fields, prefix))
  {
    FlattenFirstIsLastWins(Obj(fields), |fields|, prefix);
  }

  /** Every value of the result is a leaf: nested mappings never survive. */
  lemma FlattenValuesAreLeaves(fields: seq<(string, Json)>, prefix: string, k: string)
    requires k in ToMap(FlattenMap(fields, prefix))
    ensures !ToMap(FlattenMap(fields, prefix))[k].Obj?
  {
    FlattenIsLastWinsOfLeaves(fields, prefix);
    LastWinsFromStream(Leaves(fields, prefix), k);
  }

  /** The keys of the result are exactly the leaf paths. */
  lemma FlattenKeysAreLeafPaths(fields: seq<(string, Json)>, prefix: string)
    ensures KeySet(FlattenMap(fields, prefix)) == KeySet(Leaves(fields, prefix))
  {
    FlattenIsLastWinsOfLeaves(fields, prefix);
  }

  lemma {:induction false} LeafPathsFirstUnderPrefix(m: Json, n: nat, prefix: string)
    requires m.Obj? && n <= |m.fields| && prefix != ""
    ensures forall i :: 0 <= i < |LeavesFirst(m, n, prefix)| ==> StartsWith(LeavesFirst(m, n, prefix)[i].0, prefix + ".")
    decreases m, n
  {
    if n > 0 {
      var k := n - 1;
      var (key, value) := m.fields[k];
      assert m.fields[k] in m.fields;
      LeafPathsFirstUnderPrefix(m, k, prefix);
      var path := Join(prefix, key);
      var a: seq<(string, Json)> := LeavesFirst(m, k, prefix);
      var b: seq<(string, Json)> := if value.Obj? then LeavesFirst(value, |value.fields|, path) else [(path, value)];
      if !value.Obj? {
        UnfoldLeaf(m, k, prefix);
      } else {
        UnfoldNested(m, k, prefix, value, path);
        LeafPathsFirstUnderPrefix(value, |value.fields|, path);
        forall i | 0 <= i < |b|
          ensures StartsWith(b[i].0, prefix + ".")
        {
          var p := b[i].0;
          assert p[..|path| + 1][..|prefix| + 1] == p[..|prefix| + 1];
          assert path[..|prefix| + 1] == prefix + ".";
        }
      }
      forall i | 0 <= i < |a + b|
        ensures StartsWith((a + b)[i].0, prefix + ".")
      {
        if i >= |a| {
          assert (a + b)[i] == b[i - |a|];
        }
      }
    }
  }

  /** Below a non-empty prefix every path begins with the prefix and a dot. */
  lemma LeafPathsUnderPrefix(fields: seq<(string, Json)>, prefix: string)
    requires prefix != ""
    ensures forall i :: 0 <= i < |Leaves(fields, prefix)| ==> StartsWith(Leaves(fields, prefix)[i].0, prefix + ".")
  {
    LeafPathsFirstUnderPrefix(Obj(fields), |fields|, prefix);
  }

  /** The loop after `n` entries depends only on those entries. */
  lemma {:induction false} FlattenFirstOnlyReadsPrefix(a: Json, b: Json, n: nat, prefix: string)
    requires a.Obj? && b.Obj? && n <= |a.fields| && n <= |b.fields| && a.fields[..n] == b.fields[..n]
    ensures FlattenFirst(a, n, prefix) == FlattenFirst(b, n, prefix)
    decreases n
  {
    if n > 0 {
      assert a.fields[..n - 1] == a.fields[..n][..n - 1];
      assert b.fields[..n - 1] == b.fields[..n][..n - 1];
      assert a.fields[n - 1] == a.fields[..n][n - 1];
      assert b.fields[n - 1] == b.fields[..n][n - 1];
      FlattenFirstOnlyReadsPrefix(a, b, n - 1, prefix);
    }
  }

  /** An empty nested mapping contributes no key, wherever it stands. */
  lemma {:induction false} EmptyNestedObjectVanishes(before: seq<(string, Json)>, key: string, after: seq<(string, Json)>,
                                                     prefix: string)
    ensures FlattenMap(before + [(key, Obj([]))] + after, prefix) == FlattenMap(before + after, prefix)
    decreases |after|
  {
    var e := (key, Obj([]));
    if |after| == 0 {
      assert before + [e] + after == before + [e];
      assert before + after == before;
      FlattenSnoc(before, e, prefix);
      assert FlattenMap(e.1.fields, Join(prefix, key)) == [];
    } else {
      var init, last := after[..|after| - 1], after[|after| - 1];
      assert after == init + [last];
      EmptyNestedObjectVanishes(before, key, init, prefix);
      SnocRegroup(before, e, init, last);
      FlattenSnoc(before + [e] + init, last, prefix);
      FlattenSnoc(before + init, last, prefix);
    }
  }

  /** The loop's next step: what one more entry does to the flattened mapping. */
  lemma FlattenSnoc(fields: seq<(string, Json)>, entry: (string, Json), prefix: string)
    ensures FlattenMap(fields + [entry], prefix)
         == if entry.1.Obj? then Assign(FlattenMap(fields, prefix), FlattenMap(entry.1.fields, Join(prefix, entry.0)))
            else Put(FlattenMap(fields, prefix), Join(prefix, entry.0), entry.1)
  {
    var longer := Obj(fields + [entry]);
    var k := |fields|;
    assert longer.fields[..k] == fields[..k];
    FlattenFirstOnlyReadsPrefix(longer, Obj(fields), k, prefix);
    assert longer.fields[k] == entry;
    if entry.1.Obj? {
      UnfoldNested(longer, k, prefix, entry.1, Join(prefix, entry.0));
    } else {
      UnfoldLeaf(longer, k, prefix);
    }
  }

  lemma SnocRegroup<T>(before: seq<T>, x: T, init: seq<T>, last: T)
    ensures before + [x] + (init + [last]) == (before + [x] + init) + [last]
    ensures before + (init + [last]) == (before + init) + [last]
  {
  }

  /** A top-level mapping of leaves with distinct keys flattens to itself, order
      included. */
  lemma {:induction false} FlatMapIsFixedPoint(fields: seq<(string, Json)>)
    requires DistinctKeys(fields) && NoNested(fields)
    ensures FlattenMap(fields, "") == fields
    decreases |fields|
  {
    if |fields| > 0 {
      var init := fields[..|fields| - 1];
      var last := fields[|fields| - 1];
      assert fields == init + [last];
      DistinctKeysSnoc(init, last);
      assert NoNested(init) by {
        forall i | 0 <= i < |init|
          ensures !init[i].1.Obj?
        {
          assert init[i] == fields[i];
        }
      }
      FlatMapIsFixedPoint(init);
      assert init[..|init|] == fields[..|init|];
      var k := |init|;
      FlattenFirstOnlyReadsPrefix(Obj(init), Obj(fields), k, "");
      UnfoldLeaf(Obj(fields), k, "");
      PutNewKeyAppends(init, last.0, last.1);
    }
  }

  /** A dotted top-level key and a nested path spelling the same key collide; the
      one flattened later wins, in either order. */
  lemma LaterPathWins()
    ensures FlattenMap([("a.b", Scalar(VNum(1))), ("a", Obj([("b", Scalar(VNum(2)))]))], "") == [("a.b", Scalar(VNum(2)))]
    ensures FlattenMap([("a", Obj([("b", Scalar(VNum(2)))])), ("a.b", Scalar(VNum(1)))], "") == [("a.b", Scalar(VNum(1)))]
  {
    var one, two := Scalar(VNum(1)), Scalar(VNum(2));
    var nested := [("b", two)];
    assert Join("a", "b") == "a.b" by {
      assert "a" + "." + "b" == "a.b";
    }
    assert FlattenFirst(Obj(nested), 1, "a") == Put([], "a.b", two);
    assert FlattenFirst(Obj(nested), 1, "a") == [("a.b", two)];
    var f1 := [("a.b", one), ("a", Obj(nested))];
    assert f1[..1] == [("a.b", one)] && f1[..1][..0] == [];
    var f2 := [("a", Obj(nested)), ("a.b", one)];
    assert f2[..1] == [("a", Obj(nested))] && f2[..1][..0] == [];
  }
}

=== FILE: objects.dfy ===
/** JavaScript plain objects with string keys, as ordered association lists.
    The order of the list is the order `Object.entries` visits the properties
    (insertion order), so detector output order is explicit. Property
    assignment (`o[k] = v`) and `Object.assign` are modelled exactly: an
    assignment to an existing key replaces its value in place, an assignment to
    a new key appends it. The reference meaning of a list is the Dafny `map`
    it denotes. */
module Objects {
  import opened Wrappers

  type Object<T> = seq<(string, T)>

  /** The keys of an object. */
  function KeySet<T>(m: Object<T>): set<string>
    decreases |m|
  {
    if |m| == 0 then {} else {m[0].0} + KeySet(m[1..])
  }

  /** Each key occurs at most once, as in every JavaScript object. */
  predicate DistinctKeys<T>(m: Object<T>)
    decreases |m|
  {
    |m| == 0 || (m[0].0 !in KeySet(m[1..]) && DistinctKeys(m[1..]))
  }

  /** The map an object denotes; on a repeated key (which no real object has) the
      first occurrence is the one property lookup finds. */
  function ToMap<T>(m: Object<T>): (r: map<string, T>)
    ensures r.Keys == KeySet(m)
    decreases |m|
  {
    if |m| == 0 then map[] else ToMap(m[1..])[m[0].0 := m[0].1]
  }

  /** The map a stream of assignments leaves behind: later assignments win. */
  function LastWins<T>(m: Object<T>): (r: map<string, T>)
    ensures r.Keys == KeySet(m)
    decreases |m|
  {
    if |m| == 0 then map[] else map[m[0].0 := m[0].1] + LastWins(m[1..])
  }

  /** `o[k]`: `None` stands for `undefined`. */
  function Lookup<T>(m: Object<T>, k: string): (r: Option<T>)
    ensures r.Some? <==> k in ToMap(m)
    ensures r.Some? ==> r.value == ToMap(m)[k]
    decreases |m|
  {
    if |m| == 0 then None
    else if m[0].0 == k then Some(m[0].1)
    else Lookup(m[1..], k)
  }

  /** `o[k] = v`. */
  function Put<T>(m: Object<T>, k: string, v: T): (r: Object<T>)
    ensures ToMap(r) == ToMap(m)[k := v]
    ensures KeySet(r) == KeySet(m) + {k}
    decreases |m|
  {
    if |m| == 0 then [(k, v)]
    else if m[0].0 == k then
      var r := [(k, v)] + m[1..];
      assert r[0] == (k, v) && r[1..] == m[1..];
      r
    else
      var rest := Put(m[1..], k, v);
      var r := [m[0]] + rest;
      assert r[0] == m[0] && r[1..] == rest;
      r
  }

  /** Reading back after an assignment. */
  lemma LookupPut<T>(m: Object<T>, k: string, v: T, key: string)
    ensures Lookup(Put(m, k, v), key) == if key == k then Some(v) else Lookup(m, key)
  {
    assert ToMap(Put(m, k, v)) == ToMap(m)[k := v];
  }

  /** Assigning to an existing key replaces it in place, so an object stays an
      object. */
  lemma {:induction false} PutKeepsKeysDistinct<T>(m: Object<T>, k: string, v: T)
    ensures DistinctKeys(m) ==> DistinctKeys(Put(m, k, v))
    decreases |m|
  {
    if |m| > 0 && m[0].0 != k {
      PutKeepsKeysDistinct(m[1..], k, v);
      assert Put(m, k, v)[1..] == Put(m[1..], k, v);
    } else if |m| > 0 {
      assert Put(m, k, v)[1..] == m[1..];
    }
  }

  /** Assigning to a new key appends it. */
  lemma {:induction false} PutNewKeyAppends<T>(m: Object<T>, k: string, v: T)
    requires k !in KeySet(m)
    ensures Put(m, k, v) == m + [(k, v)]
    decreases |m|
  {
    if |m| > 0 {
      PutNewKeyAppends(m[1..], k, v);
      assert m == [m[0]] + m[1..];
    }
  }

  /** Moving an appended element across a concatenation. */
  lemma ConcatShift<T>(a: seq<T>, x: T, b: seq<T>)
    ensures (a + [x]) + b == a + ([x] + b)
  {
  }

  /** A sequence split around its element `i`. */
  lemma SplitAt<T>(s: seq<T>, i: nat)
    requires i < |s|
    ensures s == (s[..i] + [s[i]]) + s[i + 1..]
  {
  }

  /** Copying the first property of an object into a disjoint one appends it,
      and the rest of the object stays disjoint from the result. */
  lemma CopyFirstFresh<T, U>(acc: Object<T>, rest: Object<U>, v: T)
    requires |rest| > 0 && DistinctKeys(rest) && KeySet(acc) !! KeySet(rest)
    ensures Put(acc, rest[0].0, v) == acc + [(rest[0].0, v)]
    ensures DistinctKeys(rest[1..]) && KeySet(acc + [(rest[0].0, v)]) !! KeySet(rest[1..])
  {
    var k := rest[0].0;
    PutNewKeyAppends(acc, k, v);
    KeySetConcat(acc, [(k, v)]);
    assert [(k, v)][1..] == [];
  }

  /** `Object.assign(m, src)`: assigns the properties of `src` in order. */
  function Assign<T>(m: Object<T>, src: Object<T>): (r: Object<T>)
    ensures ToMap(r) == ToMap(m) + LastWins(src)
    ensures KeySet(r) == KeySet(m) + KeySet(src)
    ensures DistinctKeys(m) ==> DistinctKeys(r)
    decreases |src|
  {
    if |src| == 0 then m
    else
      PutKeepsKeysDistinct(m, src[0].0, src[0].1);
      var r := Assign(Put(m, src[0].0, src[0].1), src[1..]);
      AssignStepMaps(ToMap(m), src[0].0, src[0].1, LastWins(src[1..]));
      r
  }

  /** One assignment followed by a stream of them, as map unions. */
  lemma AssignStepMaps<T>(a: map<string, T>, k: string, v: T, b: map<string, T>)
    ensures a[k := v] + b == a + (map[k := v] + b)
  {
    assert a[k := v] == a + map[k := v];
    UnionAssociative(a, map[k := v], b);
  }

  lemma UnionAssociative<K, V>(a: map<K, V>, b: map<K, V>, c: map<K, V>)
    ensures (a + b) + c == a + (b + c)
  {
  }

  /** Assigning two streams in turn is assigning their concatenation. */
  lemma {:induction false} LastWinsConcat<T>(a: Object<T>, b: Object<T>)
    ensures LastWins(a + b) == LastWins(a) + LastWins(b)
    decreases |a|
  {
    if |a| == 0 {
      assert a + b == b;
    } else {
      assert (a + b)[1..] == a[1..] + b;
      LastWinsConcat(a[1..], b);
      UnionAssociative(map[a[0].0 := a[0].1], LastWins(a[1..]), LastWins(b));
    }
  }

  /** Every entry of the later-wins map comes from some assignment in the stream. */
  lemma {:induction false} LastWinsFromStream<T>(m: Object<T>, k: string)
    requires k in LastWins(m)
    ensures (k, LastWins(m)[k]) in m
    decreases |m|
  {
    if k in LastWins(m[1..]) {
      LastWinsFromStream(m[1..], k);
    }
  }

  /** For a real object, later-wins and first-wins agree: both are the object's map. */
  lemma {:induction false} LastWinsOfObject<T>(m: Object<T>)
    requires DistinctKeys(m)
    ensures LastWins(m) == ToMap(m)
    decreases |m|
  {
    if |m| > 0 {
      LastWinsOfObject(m[1..]);
    }
  }

  /** Splitting off the last entry of an object with distinct keys. */
  lemma {:induction false} DistinctKeysSnoc<T>(init: Object<T>, last: (string, T))
    requires DistinctKeys(init + [last])
    ensures DistinctKeys(init) && last.0 !in KeySet(init)
    decreases |init|
  {
    if |init| > 0 {
      assert (init + [last])[1..] == init[1..] + [last];
      DistinctKeysSnoc(init[1..], last);
      KeySetConcat(init[1..], [last]);
      assert [last][1..] == [];
    }
  }

  lemma {:induction false} KeySetConcat<T>(a: Object<T>, b: Object<T>)
    ensures KeySet(a + b) == KeySet(a) + KeySet(b)
    decreases |a|
  {
    if |a| == 0 {
      assert a + b == b;
    } else {
      assert (a + b)[1..] == a[1..] + b;
      KeySetConcat(a[1..], b);
    }
  }

  /** Putting one more entry keeps an object in step with a stream it denotes. */
  lemma PutExtendsStream<T>(acc: Object<T>, before: Object<T>, k: string, v: T)
    requires ToMap(acc) == LastWins(before)
    ensures ToMap(Put(acc, k, v)) == LastWins(before + [(k, v)])
  {
    LastWinsConcat(before, [(k, v)]);
    assert [(k, v)][1..] == [];
    assert LastWins([(k, v)]) == map[k := v];
  }

  /** Assigning an object keeps an object in step with a stream it denotes. */
  lemma AssignExtendsStream<T>(acc: Object<T>, before: Object<T>, src: Object<T>, srcStream: Object<T>)
    requires ToMap(acc) == LastWins(before) && ToMap(src) == LastWins(srcStream)
    requires DistinctKeys(src)
    ensures ToMap(Assign(acc, src)) == LastWins(before + srcStream)
  {
    LastWinsOfObject(src);
    LastWinsConcat(before, srcStream);
  }
}

=== FILE: patterns.dfy ===
/** Rule key patterns (`matchesPattern`, driftDetector.js and driftDetection.js).
    A pattern matches a key when the two are equal; otherwise the pattern is
    compiled to an anchored regular expression in which `.` is literal and `*`
    becomes `.*`. In a JavaScript regular expression `.` matches any character
    except the line terminators, so a `*` never spans a line break. */
module Patterns {
  import opened Text

  /** The characters JavaScript's `.` does not match. */
  predicate IsLineTerminator(c: char) {
    c == '\n' || c == '\r' || c == '\U{2028}' || c == '\U{2029}'
  }

  predicate NoLineTerminator(s: string) {
    forall i :: 0 <= i < |s| ==> !IsLineTerminator(s[i])
  }

  /** Regular-expression metacharacters that the compilation leaves unescaped. */
  const REGEX_SPECIALS: string := "\\^$+?()[]{}|"

  /** A pattern whose only special characters are `.` and `*`. */
  predicate IsSafePattern(p: string) {
    forall i :: 0 <= i < |p| ==> p[i] !in REGEX_SPECIALS
  }

  type Pattern = p: string | IsSafePattern(p)

  /** The compiled expression `^p'$`: every `*` stands for any run of characters
      other than line terminators, every other character stands for itself. */
  predicate WildcardMatch(key: string, pat: string)
    decreases |key| + |pat|
  {
    if |pat| == 0 then |key| == 0
    else if pat[0] == '*' then
      WildcardMatch(key, pat[1..])
      || (|key| > 0 && !IsLineTerminator(key[0]) && WildcardMatch(key[1..], pat))
    else |key| > 0 && key[0] == pat[0] && WildcardMatch(key[1..], pat[1..])
  }

  /** `matchesPattern(key, pattern)`. */
  predicate Matches(key: string, pattern: Pattern) {
    key == pattern || WildcardMatch(key, pattern)
  }

  lemma {:induction false} LiteralWildcardMatch(key: string, pat: string)
    requires '*' !in pat
    ensures WildcardMatch(key, pat) <==> key == pat
    decreases |pat|
  {
    if |pat| > 0 && |key| > 0 {
      LiteralWildcardMatch(key[1..], pat[1..]);
      if key[0] == pat[0] && key[1..] == pat[1..] {
        assert key == [key[0]] + key[1..];
        assert pat == [pat[0]] + pat[1..];
      }
    }
  }

  /** Every pattern's compiled expression matches the pattern's own text: a `*`
      can stand for the character `*` itself. */
  lemma {:induction false} WildcardMatchesItself(p: string)
    ensures WildcardMatch(p, p)
    decreases |p|
  {
    if |p| > 0 {
      WildcardMatchesItself(p[1..]);
      if p[0] == '*' {
        assert WildcardMatch(p[1..], p[1..]);
        assert WildcardMatch(p[1..], p);
      }
    }
  }

  /** The `pattern === key` shortcut never changes the answer. */
  lemma EqualityShortcutRedundant(key: string, p: Pattern)
    ensures Matches(key, p) <==> WildcardMatch(key, p)
  {
    if key == p {
      WildcardMatchesItself(p);
    }
  }

  /** A pattern without `*` matches exactly the key it spells; in particular the
      dots in it are literal, not "any character". */
  lemma LiteralPatternMatchesOnlyItself(key: string, p: Pattern)
    requires '*' !in p
    ensures Matches(key, p) <==> key == p
  {
    LiteralWildcardMatch(key, p);
  }

  lemma {:induction false} StarMatchesRun(key: string)
    ensures WildcardMatch(key, "*") <==> NoLineTerminator(key)
    decreases |key|
  {
    assert "*"[1..] == [];
    if |key| > 0 {
      StarMatchesRun(key[1..]);
      if NoLineTerminator(key) {
        assert NoLineTerminator(key[1..]) by {
          forall i | 0 <= i < |key[1..]|
            ensures !IsLineTerminator(key[1..][i])
          {
            assert key[1..][i] == key[i + 1];
          }
        }
      }
      if !IsLineTerminator(key[0]) && NoLineTerminator(key[1..]) {
        forall i | 0 <= i < |key|
          ensures !IsLineTerminator(key[i])
        {
          if i > 0 {
            assert key[i] == key[1..][i - 1];
          }
        }
      }
    }
  }

  lemma {:induction false} PrefixThenStar(key: string, prefix: string)
    requires '*' !in prefix
    ensures WildcardMatch(key, prefix + "*")
        <==> StartsWith(key, prefix) && NoLineTerminator(key[|prefix|..])
    decreases |prefix|
  {
    if |prefix| == 0 {
      assert prefix + "*" == "*";
      StarMatchesRun(key);
      assert key[0..] == key;
    } else {
      assert (prefix + "*")[1..] == prefix[1..] + "*";
      assert (prefix + "*")[0] == prefix[0];
      if |key| > 0 {
        PrefixThenStar(key[1..], prefix[1..]);
        if |prefix| <= |key| {
          assert key[1..][|prefix| - 1..] == key[|prefix|..];
        }
        if key[0] == prefix[0] {
          assert StartsWith(key[1..], prefix[1..]) <==> StartsWith(key, prefix) by {
            if |prefix| <= |key| {
              assert key[..|prefix|] == [key[0]] + key[1..][..|prefix| - 1];
              assert prefix == [prefix[0]] + prefix[1..];
            }
          }
        } else {
          assert !StartsWith(key, prefix) by {
            if |prefix| <= |key| {
              assert key[..|prefix|][0] != prefix[0];
            }
          }
        }
      }
    }
  }

  /** A pattern ending in `*`, with no other `*`, matches exactly the keys that
      begin with the part before the `*` and continue without a line break. */
  lemma TrailingWildcard(key: string, prefix: Pattern)
    requires '*' !in prefix
    ensures IsSafePattern(prefix + "*")
    ensures Matches(key, prefix + "*")
        <==> StartsWith(key, prefix) && NoLineTerminator(key[|prefix|..])
  {
    assert IsSafePattern(prefix + "*") by {
      forall i | 0 <= i < |prefix + "*"|
        ensures (prefix + "*")[i] !in REGEX_SPECIALS
      {
        if i < |prefix| {
          assert (prefix + "*")[i] == prefix[i];
        }
      }
    }
    PrefixThenStar(key, prefix);
    if key == prefix + "*" {
      assert StartsWith(key, prefix) && key[|prefix|..] == "*";
    }
  }

  /** `database.*` matches `database.url` and `database.` but not the bare `database`. */
  lemma WildcardBoundary()
    ensures Matches("database.url", "database.*")
    ensures Matches("database.", "database.*")
    ensures !Matches("database", "database.*")
  {
    DatabaseWildcard("database.url");
    DatabaseWildcard("database.");
    DatabaseWildcard("database");
    assert "database.url"[..9] == "database." && "database.url"[9..] == "url";
    assert "database."[9..] == "";
  }

  /** `TrailingWildcard` for the pattern `database.*`. */
  lemma DatabaseWildcard(key: string)
    ensures Matches(key, "database.*") <==> StartsWith(key, "database.") && NoLineTerminator(key[9..])
  {
    var prefix: Pattern := "database.";
    assert prefix + "*" == "database.*";
    TrailingWildcard(key, prefix);
  }
}

=== FILE: rules.dfy ===
/** Configuration rules, severities and rule selection, shared by the standalone
    engine (drift-detection-engine/src/driftDetector.js) and the server
    (config-monitor-server-js/src/services/driftDetection.js, where the same
    fields are the columns `config_key`, `allowed_in_prod`, `min_value`,
    `max_value`, `change_policy`). */
module Rules {
  import opened Wrappers
  import opened Text
  import opened Patterns

  datatype Severity = Low | Medium | High | Critical

  const CI_ONLY: string := "CI_ONLY"
  const RUNTIME_ALLOWED: string := "RUNTIME_ALLOWED"
  const ALL_ENVIRONMENTS: string := "*"

  /** A policy rule. The change policy is kept as the string it is in the source,
      so a value other than the two known policies is representable (and makes the
      override check skip the key). */
  datatype Rule = Rule(
    key: Pattern,
    required: bool,
    allowedInProd: bool,
    minValue: Option<int>,
    maxValue: Option<int>,
    changePolicy: string,
    environment: string)

  /** The argument of `createRule`; `None` is an option left `undefined`. */
  datatype RuleOptions = RuleOptions(
    key: Pattern,
    required: Option<bool>,
    allowedInProd: Option<bool>,
    minValue: Option<int>,
    maxValue: Option<int>,
    changePolicy: Option<string>,
    environment: Option<string>)

  /** `createRule`: fills in the defaults. `||` treats an empty string like an
      absent one, `?? null` keeps a bound of 0, and `!== false` makes
      `allowedInProd` default to true. */
  function CreateRule(o: RuleOptions): (r: Rule)
    ensures r.key == o.key
    ensures r.required <==> o.required == Some(true)
    ensures r.allowedInProd <==> o.allowedInProd != Some(false)
    ensures r.minValue == o.minValue && r.maxValue == o.maxValue
    ensures o.changePolicy.None? || o.changePolicy == Some("") ==> r.changePolicy == RUNTIME_ALLOWED
    ensures o.changePolicy.Some? && o.changePolicy.value != "" ==> r.changePolicy == o.changePolicy.value
    ensures o.environment.None? || o.environment == Some("") ==> r.environment == ALL_ENVIRONMENTS
    ensures o.environment.Some? && o.environment.value != "" ==> r.environment == o.environment.value
  {
    Rule(
      o.key,
      o.required.GetOr(false),
      o.allowedInProd != Some(false),
      o.minValue,
      o.maxValue,
      if o.changePolicy.GetOr("") == "" then RUNTIME_ALLOWED else o.changePolicy.value,
      if o.environment.GetOr("") == "" then ALL_ENVIRONMENTS else o.environment.value)
  }

  /** The environment filter: a rule applies when its environment is `"*"` or is
      exactly (case-sensitively) the caller's environment. */
  predicate AppliesIn(rule: Rule, env: string) {
    rule.environment == ALL_ENVIRONMENTS || rule.environment == env
  }

  /** The rules applicable to an environment, in their original order. */
  function Applicable(rules: seq<Rule>, env: string): (r: seq<Rule>)
    ensures forall rule :: rule in r <==> rule in rules && AppliesIn(rule, env)
    ensures |r| <= |rules|
    decreases |rules|
  {
    if |rules| == 0 then []
    else (if AppliesIn(rules[0], env) then [rules[0]] else []) + Applicable(rules[1..], env)
  }

  /** Filtering distributes over concatenation, so the filter keeps rule order. */
  lemma {:induction false} ApplicableConcat(a: seq<Rule>, b: seq<Rule>, env: string)
    ensures Applicable(a + b, env) == Applicable(a, env) + Applicable(b, env)
    decreases |a|
  {
    if |a| > 0 {
      assert (a + b)[1..] == a[1..] + b;
      ApplicableConcat(a[1..], b, env);
    } else {
      assert a + b == b;
    }
  }

  /** A rule scoped to another environment is inert: inserting it anywhere in the
      rule list leaves the applicable rules unchanged. A `prod` rule is therefore
      never consulted under `staging`, nor under `PROD`. */
  lemma OutOfScopeRuleIgnored(pre: seq<Rule>, rule: Rule, post: seq<Rule>, env: string)
    requires rule.environment != ALL_ENVIRONMENTS && rule.environment != env
    ensures Applicable(pre + [rule] + post, env) == Applicable(pre + post, env)
  {
    ApplicableConcat(pre + [rule], post, env);
    ApplicableConcat(pre, [rule], env);
    ApplicableConcat(pre, post, env);
    NotApplicableAlone(rule, env);
    assert Applicable(pre, env) + [] == Applicable(pre, env);
  }

  lemma NotApplicableAlone(rule: Rule, env: string)
    requires !AppliesIn(rule, env)
    ensures Applicable([rule], env) == []
  {
    assert [rule][1..] == [];
  }

  /** `findMatchingRule`: the first rule, in list order, whose pattern matches the
      key; `None` when no rule matches. */
  function FindRule(key: string, rules: seq<Rule>): (r: Option<Rule>)
    ensures r.None? <==> forall i :: 0 <= i < |rules| ==> !Matches(key, rules[i].key)
    ensures r.Some? ==> exists i :: 0 <= i < |rules| && rules[i] == r.value
                          && Matches(key, rules[i].key)
                          && forall j :: 0 <= j < i ==> !Matches(key, rules[j].key)
    decreases |rules|
  {
    if |rules| == 0 then None
    else if Matches(key, rules[0].key) then Some(rules[0])
    else
      var r := FindRule(key, rules[1..]);
      assert r.Some? ==> exists i :: 0 <= i < |rules| && rules[i] == r.value
                          && Matches(key, rules[i].key)
                          && forall j :: 0 <= j < i ==> !Matches(key, rules[j].key) by {
        if r.Some? {
          var i :| 0 <= i < |rules[1..]| && rules[1..][i] == r.value
                   && Matches(key, rules[1..][i].key)
                   && forall j :: 0 <= j < i ==> !Matches(key, rules[1..][j].key);
          assert rules[i + 1] == r.value;
          forall j | 0 <= j < i + 1
            ensures !Matches(key, rules[j].key)
          {
            if j > 0 {
              assert rules[j] == rules[1..][j - 1];
            }
          }
        }
      }
      assert r.None? ==> forall i :: 0 <= i < |rules| ==> !Matches(key, rules[i].key) by {
        if r.None? {
          forall i | 0 <= i < |rules|
            ensures !Matches(key, rules[i].key)
          {
            if i > 0 {
              assert rules[i] == rules[1..][i - 1];
            }
          }
        }
      }
      r
  }

  /** `environment.toLowerCase() === 'prod'`. Lower-casing is modelled on ASCII
      letters only; no other character lower-cases to one of `p`, `r`, `o`, `d`,
      so the comparison is unaffected. */
  predicate IsProdEnv(env: string) {
    Lower(env) == "prod"
  }

  /** The production check ignores case, the environment filter does not: under
      the environment `PROD` the check is active but a rule scoped to `prod` is
      not applicable. */
  lemma EnvironmentComparisonsDiffer(rule: Rule)
    requires rule.environment == "prod"
    ensures IsProdEnv("PROD") && IsProdEnv("Prod") && IsProdEnv("prod")
    ensures !IsProdEnv("production") && !IsProdEnv("staging")
    ensures !AppliesIn(rule, "PROD") && AppliesIn(rule, "prod")
  {
    assert Lower("PROD") == "prod";
    assert Lower("Prod") == "prod";
    assert Lower("prod") == "prod";
    assert |Lower("production")| != 4;
    assert Lower("staging")[0] == 's';
  }
}

=== FILE: server.dfy ===
/** The server-side detector (config-monitor-server-js/src/services/driftDetection.js).
    It runs the same three checks as the engine on the rules of the application's
    environment, but produces database records with stringified values, has no
    "disabled" exemption in its production check, and stores each finding only
    when no ACTIVE record for the same application and key exists. The database
    is a sequence of records; record ids, timestamps and descriptions are not
    modelled. */
module Server {
  import opened Wrappers
  import opened Values
  import opened Objects
  import opened Patterns
  import opened Rules
  import Engine

  type ConfigMap = Engine.ConfigMap

  datatype ServerDriftType = MissingRequired | Override | RuleViolation

  datatype Status = Active | Acknowledged | Resolved

  /** A row of `config_drifts`; `None` is SQL `NULL`. */
  datatype DriftRecord = DriftRecord(
    applicationId: string,
    configKey: string,
    expectedValue: Option<string>,
    actualValue: Option<string>,
    driftType: ServerDriftType,
    severity: Severity,
    status: Status)

  const SERVER_NOT_IN_PROD_MARKER: string := "(not allowed in prod)"

  /** The stored baseline; `None` stands for a `NULL` or empty column, which is
      read as the empty map. Parsing the JSON text is not modelled. */
  function BaselineOf(stored: Option<ConfigMap>): ConfigMap
  {
    stored.GetOr([])
  }

  // ---------------------------------------------------------------- MISSING

  function MissingRecord(app: string, rule: Rule): DriftRecord {
    DriftRecord(app, rule.key, Some(Engine.REQUIRED_MARKER), None, MissingRequired, High, Active)
  }

  /** `detectMissingRequired`. */
  function DetectMissingRequired(runtime: ConfigMap, rules: seq<Rule>, app: string): (r: seq<DriftRecord>)
    ensures forall i :: 0 <= i < |r| ==>
              && r[i].driftType == MissingRequired && r[i].severity == High && r[i].status == Active
              && r[i].applicationId == app && r[i].actualValue == None
              && r[i].expectedValue == Some(Engine.REQUIRED_MARKER)
    ensures |r| <= |rules|
    decreases |rules|
  {
    if |rules| == 0 then []
    else
      (if !rules[0].required then []
       else if Engine.HasMatchingKey(runtime, rules[0].key) then []
       else [MissingRecord(app, rules[0])])
      + DetectMissingRequired(runtime, rules[1..], app)
  }

  /** Exactly the required rules that no runtime key matches are reported. */
  lemma {:induction false} MissingRequiredExact(runtime: ConfigMap, rules: seq<Rule>, app: string)
    ensures forall d :: d in DetectMissingRequired(runtime, rules, app)
                        ==> exists rule :: rule in rules && Engine.Unmet(runtime, rule) && d == MissingRecord(app, rule)
    ensures forall rule :: rule in rules && Engine.Unmet(runtime, rule)
                           ==> MissingRecord(app, rule) in DetectMissingRequired(runtime, rules, app)
    decreases |rules|
  {
    if |rules| > 0 {
      MissingRequiredExact(runtime, rules[1..], app);
      assert forall rule :: rule in rules ==> rule == rules[0] || rule in rules[1..];
    }
  }

  // ------------------------------------------------------------- OVERRIDES

  /** The OVERRIDE record for a runtime entry: both sides are strings, the expected
      side is `NULL` for a key the baseline lacks. */
  function OverrideRecord(baseline: ConfigMap, e: (string, Value), app: string): DriftRecord {
    var expected := match Lookup(baseline, e.0)
                    case None => None
                    case Some(b) => Some(ToStr(b));
    DriftRecord(app, e.0, expected, Some(ToStr(e.1)), Override, Medium, Active)
  }

  /** The loop body of `detectRuntimeOverrides` for one runtime entry. */
  function OverrideRecordFor(baseline: ConfigMap, key: string, runtimeValue: Value, rules: seq<Rule>, app: string): seq<DriftRecord> {
    match Lookup(baseline, key)
    case None =>
      (match FindRule(key, rules)
       case Some(rule) =>
         if rule.changePolicy == CI_ONLY
         then [DriftRecord(app, key, None, Some(ToStr(runtimeValue)), Override, Medium, Active)] else []
       case None => [])
    case Some(baselineValue) =>
      if ToStr(baselineValue) == ToStr(runtimeValue) then []
      else
        match FindRule(key, rules)
        case Some(rule) =>
          if rule.changePolicy == CI_ONLY
          then [DriftRecord(app, key, Some(ToStr(baselineValue)), Some(ToStr(runtimeValue)), Override, Medium, Active)]
          else []
        case None => []
  }

  /** `detectRuntimeOverrides`. */
  function DetectRuntimeOverrides(baseline: ConfigMap, runtime: ConfigMap, rules: seq<Rule>, app: string): (r: seq<DriftRecord>)
    ensures forall i :: 0 <= i < |r| ==>
              && r[i].driftType == Override && r[i].severity == Medium && r[i].status == Active
              && r[i].applicationId == app && r[i].actualValue.Some?
    ensures |r| <= |runtime|
    ensures |rules| == 0 ==> r == []
    decreases |runtime|
  {
    if |runtime| == 0 then []
    else OverrideRecordFor(baseline, runtime[0].0, runtime[0].1, rules, app)
         + DetectRuntimeOverrides(baseline, runtime[1..], rules, app)
  }

  /** The override condition is the engine's: a CI_ONLY first matching rule and a
      key that is absent from the baseline or differs in string form. Exactly the
      entries meeting it are reported. */
  lemma {:induction false} RuntimeOverridesExact(baseline: ConfigMap, runtime: ConfigMap, rules: seq<Rule>, app: string)
    ensures forall d :: d in DetectRuntimeOverrides(baseline, runtime, rules, app)
                        ==> exists e :: e in runtime && Engine.IsOverride(baseline, e, rules) && d == OverrideRecord(baseline, e, app)
    ensures forall e :: e in runtime && Engine.IsOverride(baseline, e, rules)
                        ==> OverrideRecord(baseline, e, app) in DetectRuntimeOverrides(baseline, runtime, rules, app)
    decreases |runtime|
  {
    if |runtime| > 0 {
      var e := runtime[0];
      RuntimeOverridesExact(baseline, runtime[1..], rules, app);
      assert Engine.IsOverride(baseline, e, rules)
             ==> OverrideRecordFor(baseline, e.0, e.1, rules, app) == [OverrideRecord(baseline, e, app)];
      assert !Engine.IsOverride(baseline, e, rules) ==> OverrideRecordFor(baseline, e.0, e.1, rules, app) == [];
      assert forall x :: x in runtime ==> x == e || x in runtime[1..];
    }
  }

  /** Without a stored baseline every runtime key whose first matching rule is
      CI_ONLY is reported, with a `NULL` expected value. */
  lemma NoBaselineFlagsEveryCiOnlyKey(runtime: ConfigMap, rules: seq<Rule>, app: string, e: (string, Value))
    requires e in runtime && FindRule(e.0, rules).Some? && FindRule(e.0, rules).value.changePolicy == CI_ONLY
    ensures DriftRecord(app, e.0, None, Some(ToStr(e.1)), Override, Medium, Active)
            in DetectRuntimeOverrides(BaselineOf(None), runtime, rules, app)
  {
    RuntimeOverridesExact(BaselineOf(None), runtime, rules, app);
    assert Engine.IsOverride(BaselineOf(None), e, rules);
  }

  // ------------------------------------------------------------- VIOLATIONS

  /** The server's three conditions. Unlike the engine, the production check lets
      only `null` through; the bound checks are the engine's. */
  predicate ServerViolates(kind: Engine.UnsafeKind, value: Value, rule: Rule, env: string) {
    match kind
    case ProdRestricted => IsProdEnv(env) && !rule.allowedInProd && value != VNull
    case _ => Engine.Violates(kind, value, rule, env)
  }

  function ViolationRecord(kind: Engine.UnsafeKind, key: string, value: Value, rule: Rule, app: string): DriftRecord {
    match kind
    case ProdRestricted =>
      DriftRecord(app, key, Some(SERVER_NOT_IN_PROD_MARKER), Some(ToStr(value)), RuleViolation, Critical, Active)
    case BelowMin =>
      DriftRecord(app, key, Some("min: " + Engine.ShowBound(rule.minValue)), Some(ToStr(value)), RuleViolation, High, Active)
    case AboveMax =>
      DriftRecord(app, key, Some("max: " + Engine.ShowBound(rule.maxValue)), Some(ToStr(value)), RuleViolation, High, Active)
  }

  function ViolationIf(kind: Engine.UnsafeKind, key: string, value: Value, rule: Rule, env: string, app: string): seq<DriftRecord> {
    if ServerViolates(kind, value, rule, env) then [ViolationRecord(kind, key, value, rule, app)] else []
  }

  /** The loop body of `detectRuleViolations` for one entry and its rule. */
  function ViolationFor(key: string, value: Value, rule: Rule, env: string, app: string): (r: seq<DriftRecord>)
    ensures |r| <= 3
    ensures forall i :: 0 <= i < |r| ==> r[i].driftType == RuleViolation && r[i].status == Active && r[i].applicationId == app
  {
    var critical :=
      if IsProdEnv(env) && !rule.allowedInProd && value != VNull
      then [ViolationRecord(Engine.ProdRestricted, key, value, rule, app)] else [];
    var bounds :=
      if value != VNull && (rule.minValue.Some? || rule.maxValue.Some?) then
        match ParseNum(value)
        case None => []
        case Some(n) =>
          (if rule.minValue.Some? && n < rule.minValue.value
           then [ViolationRecord(Engine.BelowMin, key, value, rule, app)] else [])
          + (if rule.maxValue.Some? && n > rule.maxValue.value
             then [ViolationRecord(Engine.AboveMax, key, value, rule, app)] else [])
      else [];
    critical + bounds
  }

  /** For one entry: the production check, then the minimum, then the maximum, each
      reported exactly when its condition holds. */
  lemma ViolationForExact(key: string, value: Value, rule: Rule, env: string, app: string)
    ensures ViolationFor(key, value, rule, env, app)
         == ViolationIf(Engine.ProdRestricted, key, value, rule, env, app)
            + ViolationIf(Engine.BelowMin, key, value, rule, env, app)
            + ViolationIf(Engine.AboveMax, key, value, rule, env, app)
  {
  }

  function EntryViolations(e: (string, Value), rules: seq<Rule>, env: string, app: string): (r: seq<DriftRecord>)
    ensures |r| <= 3
    ensures forall i :: 0 <= i < |r| ==> r[i].driftType == RuleViolation && r[i].status == Active && r[i].applicationId == app
    ensures |rules| == 0 ==> r == []
  {
    match FindRule(e.0, rules)
    case None => []
    case Some(rule) => ViolationFor(e.0, e.1, rule, env, app)
  }

  /** `detectRuleViolations`. */
  function DetectRuleViolations(runtime: ConfigMap, rules: seq<Rule>, app: string, env: string): (r: seq<DriftRecord>)
    ensures forall i :: 0 <= i < |r| ==> r[i].driftType == RuleViolation && r[i].status == Active && r[i].applicationId == app
    ensures |r| <= 3 * |runtime|
    ensures |rules| == 0 ==> r == []
    decreases |runtime|
  {
    if |runtime| == 0 then []
    else EntryViolations(runtime[0], rules, env, app) + DetectRuleViolations(runtime[1..], rules, app, env)
  }

  predicate IsViolation(e: (string, Value), rules: seq<Rule>, env: string, kind: Engine.UnsafeKind) {
    FindRule(e.0, rules).Some? && ServerViolates(kind, e.1, FindRule(e.0, rules).value, env)
  }

  /** The records of one entry under its rule are exactly its violated conditions. */
  lemma ViolationForMembers(key: string, value: Value, rule: Rule, env: string, app: string)
    ensures forall d :: d in ViolationFor(key, value, rule, env, app)
                        ==> exists kind :: ServerViolates(kind, value, rule, env) && d == ViolationRecord(kind, key, value, rule, app)
    ensures forall kind :: ServerViolates(kind, value, rule, env)
                           ==> ViolationRecord(kind, key, value, rule, app) in ViolationFor(key, value, rule, env, app)
  {
    ViolationForExact(key, value, rule, env, app);
    var s1, s2, s3 := ViolationIf(Engine.ProdRestricted, key, value, rule, env, app),
                      ViolationIf(Engine.BelowMin, key, value, rule, env, app),
                      ViolationIf(Engine.AboveMax, key, value, rule, env, app);
    forall d | d in ViolationFor(key, value, rule, env, app)
      ensures exists kind :: ServerViolates(kind, value, rule, env) && d == ViolationRecord(kind, key, value, rule, app)
    {
      assert d in s1 || d in s2 || d in s3;
      if d in s1 {
        assert ServerViolates(Engine.ProdRestricted, value, rule, env) && d == ViolationRecord(Engine.ProdRestricted, key, value, rule, app);
      } else if d in s2 {
        assert ServerViolates(Engine.BelowMin, value, rule, env) && d == ViolationRecord(Engine.BelowMin, key, value, rule, app);
      } else {
        assert ServerViolates(Engine.AboveMax, value, rule, env) && d == ViolationRecord(Engine.AboveMax, key, value, rule, app);
      }
    }
  }

  /** For one entry: its records are exactly its violated conditions. */
  lemma EntryViolationsExact(e: (string, Value), rules: seq<Rule>, env: string, app: string)
    ensures forall d :: d in EntryViolations(e, rules, env, app)
                        ==> exists kind :: IsViolation(e, rules, env, kind)
                                           && d == ViolationRecord(kind, e.0, e.1, FindRule(e.0, rules).value, app)
    ensures forall kind :: IsViolation(e, rules, env, kind)
                           ==> ViolationRecord(kind, e.0, e.1, FindRule(e.0, rules).value, app) in EntryViolations(e, rules, env, app)
  {
    var found := FindRule(e.0, rules);
    if found.Some? {
      var rule := found.value;
      ViolationForMembers(e.0, e.1, rule, env, app);
      forall d | d in EntryViolations(e, rules, env, app)
        ensures exists kind :: IsViolation(e, rules, env, kind)
                               && d == ViolationRecord(kind, e.0, e.1, FindRule(e.0, rules).value, app)
      {
        assert d in ViolationFor(e.0, e.1, rule, env, app);
        var kind :| ServerViolates(kind, e.1, rule, env) && d == ViolationRecord(kind, e.0, e.1, rule, app);
        assert IsViolation(e, rules, env, kind);
      }
    }
  }

  /** Exactly the violated conditions are reported, each under the entry's first
      matching rule. */
  lemma {:induction false} RuleViolationsExact(runtime: ConfigMap, rules: seq<Rule>, app: string, env: string)
    ensures forall d :: d in DetectRuleViolations(runtime, rules, app, env)
                        ==> exists e, kind :: e in runtime && IsViolation(e, rules, env, kind)
                                              && d == ViolationRecord(kind, e.0, e.1, FindRule(e.0, rules).value, app)
    ensures forall e, kind :: e in runtime && IsViolation(e, rules, env, kind)
                              ==> ViolationRecord(kind, e.0, e.1, FindRule(e.0, rules).value, app)
                                  in DetectRuleViolations(runtime, rules, app, env)
    decreases |runtime|
  {
    if |runtime| > 0 {
      var e := runtime[0];
      RuleViolationsExact(runtime[1..], rules, app, env);
      EntryViolationsExact(e, rules, env, app);
      assert forall x :: x in runtime ==> x == e || x in runtime[1..];
    }
  }

  // --------------------------------------------------------------- DETECTION

  /** The detection half of `detectDrift`: the rules of the application's
      environment (or `*`), then missing, override and violation records in that
      order. */
  function DetectAll(stored: Option<ConfigMap>, runtime: ConfigMap, allRules: seq<Rule>, env: string, app: string): (r: seq<DriftRecord>)
    ensures forall i :: 0 <= i < |r| ==> r[i].status == Active && r[i].applicationId == app
    ensures |allRules| == 0 ==> r == []
  {
    var rules := Applicable(allRules, env);
    var missing := DetectMissingRequired(runtime, rules, app);
    var overrides := DetectRuntimeOverrides(BaselineOf(stored), runtime, rules, app);
    var violations := DetectRuleViolations(runtime, rules, app, env);
    var r := missing + overrides + violations;
    assert forall i :: 0 <= i < |r| ==> r[i].status == Active && r[i].applicationId == app by {
      forall i | 0 <= i < |r|
        ensures r[i].status == Active && r[i].applicationId == app
      {
        if i < |missing| {
          assert r[i] == missing[i];
        } else if i < |missing| + |overrides| {
          assert r[i] == overrides[i - |missing|];
        } else {
          assert r[i] == violations[i - |missing| - |overrides|];
        }
      }
    }
    r
  }

  // ------------------------------------------------------------ THE STORE

  type Store = seq<DriftRecord>

  /** The `(application_id, config_key)` pair the duplicate check looks up. */
  function Slot(d: DriftRecord): (string, string) {
    (d.applicationId, d.configKey)
  }

  /** The store holds an ACTIVE record for the pair. */
  predicate HasActive(store: Store, slot: (string, string)) {
    exists i :: 0 <= i < |store| && store[i].status == Active && Slot(store[i]) == slot
  }

  /** No two ACTIVE records share an application and key. */
  predicate AtMostOneActive(store: Store) {
    forall i, j :: 0 <= i < j < |store| && store[i].status == Active && store[j].status == Active
                   ==> Slot(store[i]) != Slot(store[j])
  }

  lemma HasActiveSnoc(xs: Store, d: DriftRecord)
    ensures forall s :: HasActive(xs + [d], s) <==> HasActive(xs, s) || (d.status == Active && Slot(d) == s)
  {
    forall s | HasActive(xs + [d], s)
      ensures HasActive(xs, s) || (d.status == Active && Slot(d) == s)
    {
      var i :| 0 <= i < |xs + [d]| && (xs + [d])[i].status == Active && Slot((xs + [d])[i]) == s;
      if i < |xs| {
        assert xs[i] == (xs + [d])[i];
      }
    }
    forall s | HasActive(xs, s)
      ensures HasActive(xs + [d], s)
    {
      var i :| 0 <= i < |xs| && xs[i].status == Active && Slot(xs[i]) == s;
      assert (xs + [d])[i] == xs[i];
    }
    assert (xs + [d])[|xs|] == d;
  }

  /** One iteration of the insert loop: the record is appended exactly when the
      store has no ACTIVE record for its pair; inactive records never block it. */
  function Insert(store: Store, d: DriftRecord): (r: Store)
    ensures |r| == |store| + 1 <==> !HasActive(store, Slot(d))
    ensures |store| <= |r| <= |store| + 1 && r[..|store|] == store
    ensures |r| == |store| + 1 ==> r[|store|] == d
    ensures forall s :: HasActive(r, s) <==> HasActive(store, s) || (d.status == Active && Slot(d) == s)
    ensures AtMostOneActive(store) ==> AtMostOneActive(r)
  {
    if HasActive(store, Slot(d)) then store
    else
      HasActiveSnoc(store, d);
      var r := store + [d];
      assert AtMostOneActive(store) ==> AtMostOneActive(r) by {
        if AtMostOneActive(store) {
          forall i, j | 0 <= i < j < |r| && r[i].status == Active && r[j].status == Active
            ensures Slot(r[i]) != Slot(r[j])
          {
            if j == |store| {
              assert r[i] == store[i];
            } else {
              assert r[i] == store[i] && r[j] == store[j];
            }
          }
        }
      }
      r
  }

  /** The insert loop of `detectDrift` over the detected records, in order. Each
      iteration sees the rows the earlier ones inserted. */
  function Persist(store: Store, ds: seq<DriftRecord>): (r: Store)
    ensures |store| <= |r| <= |store| + |ds|
    ensures r[..|store|] == store
    ensures AtMostOneActive(store) ==> AtMostOneActive(r)
    decreases |ds|
  {
    if |ds| == 0 then store
    else Insert(Persist(store, ds[..|ds| - 1]), ds[|ds| - 1])
  }

  /** After the loop a pair has an ACTIVE record exactly when it had one before or
      one of the detected records for it is ACTIVE. */
  lemma {:induction false} ActiveAfterPersist(store: Store, ds: seq<DriftRecord>, s: (string, string))
    ensures HasActive(Persist(store, ds), s) <==> HasActive(store, s) || HasActive(ds, s)
    decreases |ds|
  {
    if |ds| > 0 {
      var p, d := ds[..|ds| - 1], ds[|ds| - 1];
      ActiveAfterPersist(store, p, s);
      assert ds == p + [d];
      HasActiveSnoc(p, d);
    }
  }

  /** Record `i` of the batch is stored: neither the prior store nor an earlier
      record of the batch holds an ACTIVE record for its pair. */
  predicate Kept(store: Store, ds: seq<DriftRecord>, i: nat)
    requires i < |ds|
  {
    !HasActive(store, Slot(ds[i])) && !HasActive(ds[..i], Slot(ds[i]))
  }

  /** The batch records that are stored, in batch order. */
  function KeptRows(store: Store, ds: seq<DriftRecord>): seq<DriftRecord>
    decreases |ds|
  {
    if |ds| == 0 then []
    else KeptRows(store, ds[..|ds| - 1]) + (if Kept(store, ds, |ds| - 1) then [ds[|ds| - 1]] else [])
  }

  /** The loop appends exactly the kept records: the store after it is the old
      store followed by them. */
  lemma {:induction false} PersistAppendsKeptRows(store: Store, ds: seq<DriftRecord>)
    ensures Persist(store, ds) == store + KeptRows(store, ds)
    decreases |ds|
  {
    if |ds| > 0 {
      var p, d := ds[..|ds| - 1], ds[|ds| - 1];
      PersistAppendsKeptRows(store, p);
      ActiveAfterPersist(store, p, Slot(d));
      assert ds[..|ds| - 1] == p;
    }
  }

  /** Every ACTIVE record of the batch leaves an ACTIVE record for its pair. */
  lemma PersistCoversBatch(store: Store, ds: seq<DriftRecord>)
    ensures forall i :: 0 <= i < |ds| && ds[i].status == Active ==> HasActive(Persist(store, ds), Slot(ds[i]))
  {
    forall i | 0 <= i < |ds| && ds[i].status == Active
      ensures HasActive(Persist(store, ds), Slot(ds[i]))
    {
      ActiveAfterPersist(store, ds, Slot(ds[i]));
    }
  }

  /** One call adds at most one ACTIVE record per pair, and none for a pair that
      already had one. */
  lemma {:induction false} PersistAddsFreshActives(store: Store, ds: seq<DriftRecord>)
    ensures forall i :: |store| <= i < |Persist(store, ds)| && Persist(store, ds)[i].status == Active
                        ==> !HasActive(store, Slot(Persist(store, ds)[i]))
    ensures forall i, j :: |store| <= i < j < |Persist(store, ds)|
                           && Persist(store, ds)[i].status == Active && Persist(store, ds)[j].status == Active
                           ==> Slot(Persist(store, ds)[i]) != Slot(Persist(store, ds)[j])
    decreases |ds|
  {
    if |ds| > 0 {
      var p, d := ds[..|ds| - 1], ds[|ds| - 1];
      PersistAddsFreshActives(store, p);
      var before := Persist(store, p);
      var after := Persist(store, ds);
      assert after == Insert(before, d);
      if |after| == |before| + 1 {
        ActiveAfterPersist(store, p, Slot(d));
        forall i | |store| <= i < |after| - 1 && after[i].status == Active
          ensures Slot(after[i]) != Slot(d)
        {
          assert after[i] == before[i];
        }
      }
    }
  }

  /** Acknowledged and resolved history is irrelevant: over a store without
      ACTIVE records the loop appends the same rows as over an empty store. */
  lemma {:induction false} InactiveRowsNeverBlock(store: Store, ds: seq<DriftRecord>)
    requires forall i :: 0 <= i < |store| ==> store[i].status != Active
    ensures Persist(store, ds) == store + Persist([], ds)
    decreases |ds|
  {
    KeptRowsIgnoreInactive(store, ds);
    PersistAppendsKeptRows(store, ds);
    PersistAppendsKeptRows([], ds);
  }

  lemma {:induction false} KeptRowsIgnoreInactive(store: Store, ds: seq<DriftRecord>)
    requires forall i :: 0 <= i < |store| ==> store[i].status != Active
    ensures KeptRows(store, ds) == KeptRows([], ds)
    decreases |ds|
  {
    if |ds| > 0 {
      KeptRowsIgnoreInactive(store, ds[..|ds| - 1]);
      assert !HasActive(store, Slot(ds[|ds| - 1]));
    }
  }

  lemma {:induction false} NothingKeptWhenAllActive(store: Store, ds: seq<DriftRecord>)
    requires forall i :: 0 <= i < |ds| ==> HasActive(store, Slot(ds[i]))
    ensures KeptRows(store, ds) == []
    decreases |ds|
  {
    if |ds| > 0 {
      NothingKeptWhenAllActive(store, ds[..|ds| - 1]);
    }
  }

  /** A steady-state drift is recorded once: running the loop again on the same
      ACTIVE batch leaves the store unchanged. */
  lemma PersistIdempotent(store: Store, ds: seq<DriftRecord>)
    requires forall i :: 0 <= i < |ds| ==> ds[i].status == Active
    ensures Persist(Persist(store, ds), ds) == Persist(store, ds)
  {
    var once := Persist(store, ds);
    PersistCoversBatch(store, ds);
    NothingKeptWhenAllActive(once, ds);
    PersistAppendsKeptRows(once, ds);
  }

  /** `detectDrift`: detect, then run the insert loop; every detected record is
      returned, stored or not. `None` is the unknown application, for which the
      source fails before inserting anything. */
  function ProcessSnapshot(store: Store, app: string, appEnvironment: Option<string>, stored: Option<ConfigMap>,
                           runtime: ConfigMap, allRules: seq<Rule>): (r: Option<(seq<DriftRecord>, Store)>)
    ensures r.None? <==> appEnvironment.None?
    ensures r.Some? ==> r.value.0 == DetectAll(stored, runtime, allRules, appEnvironment.value, app)
    ensures r.Some? ==> r.value.1 == store + KeptRows(store, r.value.0)
    ensures r.Some? ==> |store| <= |r.value.1| && r.value.1[..|store|] == store
    ensures r.Some? ==> forall d :: d in r.value.0 ==> HasActive(r.value.1, Slot(d))
    ensures r.Some? && AtMostOneActive(store) ==> AtMostOneActive(r.value.1)
  {
    match appEnvironment
    case None => None
    case Some(env) =>
      var drifts := DetectAll(stored, runtime, allRules, env, app);
      PersistCoversBatch(store, drifts);
      PersistAppendsKeptRows(store, drifts);
      assert forall d :: d in drifts ==> HasActive(Persist(store, drifts), Slot(d)) by {
        forall d | d in drifts
          ensures HasActive(Persist(store, drifts), Slot(d))
        {
          var i :| 0 <= i < |drifts| && drifts[i] == d;
        }
      }
      Some((drifts, Persist(store, drifts)))
  }
}

=== FILE: server_scenarios.dfy ===
/** Worked scenarios of the server detector and its insert loop. */
module ServerScenarios {
  import opened Wrappers
  import Text
  import opened Values
  import opened Patterns
  import opened Rules
  import Engine
  import opened Server

  /** `debug` may change at runtime but not be set in production. */
  function ProdForbiddenDebugRule(): Rule {
    Rule("debug", false, false, None, None, RUNTIME_ALLOWED, ALL_ENVIRONMENTS)
  }

  /** `debug = false` in production: the server records a CRITICAL violation, the
      engine, which exempts `false`, reports nothing. */
  lemma DisabledValueFlaggedByServerOnly()
    ensures DetectAll(None, [("debug", VBool(false))], [ProdForbiddenDebugRule()], "prod", "app")
         == [DriftRecord("app", "debug", Some(SERVER_NOT_IN_PROD_MARKER), Some("false"), RuleViolation, Critical, Active)]
    ensures Engine.DetectDrift([], [("debug", VBool(false))], [ProdForbiddenDebugRule()], "prod") == []
  {
    var rule := ProdForbiddenDebugRule();
    var runtime := [("debug", VBool(false))];
    assert Applicable([rule], "prod") == [rule];
    assert FindRule("debug", [rule]) == Some(rule);
    assert IsProdEnv("prod") by { assert Text.Lower("prod") == "prod"; }
    assert runtime[1..] == [];
  }

  /** A CI_ONLY key that is also forbidden in production. */
  function LockedRule(): Rule {
    Rule("debug", false, false, None, None, CI_ONLY, "prod")
  }

  function OverrideRow(): DriftRecord {
    DriftRecord("app", "debug", None, Some("true"), Override, Medium, Active)
  }

  function ViolationRow(): DriftRecord {
    DriftRecord("app", "debug", Some(SERVER_NOT_IN_PROD_MARKER), Some("true"), RuleViolation, Critical, Active)
  }

  /** Two findings for one key: both are returned, but only the first is stored,
      because the duplicate check looks at the application and key only. */
  lemma SameKeyFindingsStoredOnce()
    ensures ProcessSnapshot([], "app", Some("prod"), None, [("debug", VBool(true))], [LockedRule()])
         == Some(([OverrideRow(), ViolationRow()], [OverrideRow()]))
  {
    var rule := LockedRule();
    var runtime := [("debug", VBool(true))];
    assert Applicable([rule], "prod") == [rule];
    assert FindRule("debug", [rule]) == Some(rule);
    assert IsProdEnv("prod") by { assert Text.Lower("prod") == "prod"; }
    assert runtime[1..] == [];
    var ds := [OverrideRow(), ViolationRow()];
    assert DetectAll(None, runtime, [rule], "prod", "app") == ds;
    assert Persist([], ds[..1]) == [OverrideRow()] by {
      assert ds[..1][..0] == [];
    }
    assert HasActive([OverrideRow()], Slot(ViolationRow())) by {
      assert [OverrideRow()][0] == OverrideRow();
    }
  }

  /** An unknown application is rejected before anything is stored. */
  lemma UnknownApplication(store: Store, stored: Option<Engine.ConfigMap>, runtime: Engine.ConfigMap, rules: seq<Rule>)
    ensures ProcessSnapshot(store, "app", None, stored, runtime, rules).None?
  {
  }
}

=== FILE: text.dfy ===
/** String helpers: prefixes, ASCII lower-casing and decimal integers. */
module Text {
  import opened Wrappers

  /** `s.startsWith(prefix)`. */
  predicate StartsWith(s: string, prefix: string) {
    |prefix| <= |s| && s[..|prefix|] == prefix
  }

  /** A string differing from a prefix at one of its positions does not start
      with it. */
  lemma DiffersFromPrefix(s: string, prefix: string, i: nat)
    requires i < |prefix| && i < |s| && s[i] != prefix[i]
    ensures !StartsWith(s, prefix)
  {
  }

  /** One character of `toLowerCase`, restricted to ASCII letters. */
  function LowerChar(c: char): char {
    if 'A' <= c <= 'Z' then ((c as int) + 32) as char else c
  }

  /** `toLowerCase`, restricted to ASCII letters. */
  function Lower(s: string): (r: string)
    ensures |r| == |s|
  {
    seq(|s|, i requires 0 <= i < |s| => LowerChar(s[i]))
  }

  predicate IsDigit(c: char) {
    '0' <= c <= '9'
  }

  predicate AllDigits(s: string) {
    forall i :: 0 <= i < |s| ==> IsDigit(s[i])
  }

  function DigitChar(d: nat): (c: char)
    requires d < 10
    ensures IsDigit(c)
  {
    (('0' as int) + d) as char
  }

  function DigitValue(c: char): (d: nat)
    requires IsDigit(c)
    ensures d < 10
  {
    (c as int) - ('0' as int)
  }

  /** Decimal digits of a natural number, most significant first, no leading zeros. */
  function NatToDecimal(n: nat): (r: string)
    ensures |r| > 0 && AllDigits(r)
    decreases n
  {
    if n < 10 then [DigitChar(n)] else NatToDecimal(n / 10) + [DigitChar(n % 10)]
  }

  /** `String(n)` for an integer-valued JavaScript number. */
  function IntToDecimal(i: int): string {
    if i < 0 then "-" + NatToDecimal(-i) else NatToDecimal(i)
  }

  /** The number a run of decimal digits denotes. */
  function DigitsValue(s: string): nat
    requires AllDigits(s)
    decreases |s|
  {
    if |s| == 0 then 0 else DigitsValue(s[..|s| - 1]) * 10 + DigitValue(s[|s| - 1])
  }

  /** Length of the longest prefix of `s` made of decimal digits. */
  function DigitRun(s: string): (n: nat)
    ensures n <= |s|
    ensures AllDigits(s[..n])
    ensures n < |s| ==> !IsDigit(s[n])
    decreases |s|
  {
    if |s| == 0 || !IsDigit(s[0]) then 0
    else
      var n := 1 + DigitRun(s[1..]);
      assert s[..n] == [s[0]] + s[1..][..n - 1];
      n
  }

  /** The part of `parseFloat` this model covers: an optional sign, then a digit
      run that no `.`, `e` or `E` follows; there the value is `parseFloat`'s. Every
      other string reads as no number, including those `parseFloat` reads through a
      fraction or exponent part (`"5.0"`, `"1e3"`, `".5"`) and those with leading
      whitespace. */
  function ParseLeadingInt(s: string): Option<int> {
    var negative := |s| > 0 && s[0] == '-';
    var body := if |s| > 0 && (s[0] == '-' || s[0] == '+') then s[1..] else s;
    var n := DigitRun(body);
    if n == 0 then None
    else if n < |body| && (body[n] == '.' || body[n] == 'e' || body[n] == 'E') then None
    else
      var magnitude: int := DigitsValue(body[..n]);
      Some(if negative then -magnitude else magnitude)
  }

  lemma {:induction false} DigitRunOfDigits(s: string)
    requires AllDigits(s)
    ensures DigitRun(s) == |s|
    decreases |s|
  {
    if |s| > 0 {
      DigitRunOfDigits(s[1..]);
    }
  }

  lemma {:induction false} NatToDecimalValue(n: nat)
    ensures DigitsValue(NatToDecimal(n)) == n
    decreases n
  {
    var s := NatToDecimal(n);
    if n >= 10 {
      NatToDecimalValue(n / 10);
      assert s[..|s| - 1] == NatToDecimal(n / 10);
    }
  }

  /** Reading back the decimal form of any integer gives the integer: the decimal
      form and `ParseLeadingInt` are inverse on integers. */
  lemma {:induction false} DecimalRoundTrip(i: int)
    ensures ParseLeadingInt(IntToDecimal(i)) == Some(i)
  {
    var digits := if i < 0 then NatToDecimal(-i) else NatToDecimal(i);
    DigitRunOfDigits(digits);
    NatToDecimalValue(if i < 0 then -i else i);
    var s := IntToDecimal(i);
    if i < 0 {
      assert s[1..] == digits;
    } else {
      assert IsDigit(s[0]);
      assert s == digits;
    }
    assert digits[..|digits|] == digits;
  }

  /** Distinct integers have distinct decimal forms. */
  lemma DecimalInjective(a: int, b: int)
    requires IntToDecimal(a) == IntToDecimal(b)
    ensures a == b
  {
    DecimalRoundTrip(a);
    DecimalRoundTrip(b);
  }
}

=== FILE: values.dfy ===
/** Scalar configuration values and the two JavaScript coercions the detectors use:
    `String(v)` for comparisons and `parseFloat(v)` for bound checks. */
module Values {
  import opened Wrappers
  import opened Text

  /** A scalar configuration value: `null`, a boolean, an (integer) number or a string. */
  datatype Value = VNull | VBool(b: bool) | VNum(n: int) | VStr(s: string)

  /** JavaScript `String(v)`. */
  function ToStr(v: Value): string {
    match v
    case VNull => "null"
    case VBool(b) => if b then "true" else "false"
    case VNum(n) => IntToDecimal(n)
    case VStr(s) => s
  }

  /** `parseFloat(v)`, `None` standing for `NaN`. `parseFloat` first converts its
      argument with `String`, so `true` and `null` read as the words "true" and
      "null", which are not numbers. */
  function ParseNum(v: Value): (r: Option<int>)
    ensures v.VNum? ==> r == Some(v.n)
    ensures v.VNull? || v.VBool? ==> r.None?
  {
    match v
    case VNum(n) => DecimalRoundTrip(n); ParseLeadingInt(ToStr(v))
    case VStr(s) => ParseLeadingInt(s)
    case _ => None
  }

  /** A number and a string compare equal under `String` exactly when the string is
      the number's decimal form, so `10000` and `"10000"` are the same value to the
      override check while `10000` and `10001` are not. */
  lemma NumberStringCoercion(n: int, s: string)
    ensures ToStr(VNum(n)) == ToStr(VStr(s)) <==> s == IntToDecimal(n)
  {
  }

  /** Two numbers have the same string form only if they are equal. */
  lemma NumberStringsDistinct(a: int, b: int)
    requires a != b
    ensures ToStr(VNum(a)) != ToStr(VNum(b))
  {
    if ToStr(VNum(a)) == ToStr(VNum(b)) {
      DecimalInjective(a, b);
    }
  }

  /** The coercions the string comparison performs: `true`/`"true"`, `false`/`"false"`
      and `null`/`"null"` are indistinguishable, and `10000`/`"10000"` too. */
  lemma CoercionExamples()
    ensures ToStr(VBool(true)) == ToStr(VStr("true"))
    ensures ToStr(VBool(false)) == ToStr(VStr("false"))
    ensures ToStr(VNull) == ToStr(VStr("null"))
    ensures ToStr(VNum(10000)) == ToStr(VStr("10000"))
    ensures ToStr(VNum(10000)) != ToStr(VNum(10001))
  {
    NumberStringsDistinct(10000, 10001);
    TenThousandDecimal();
  }

  lemma TenThousandDecimal()
    ensures IntToDecimal(10000) == "10000"
  {
    assert NatToDecimal(1) == "1";
    assert NatToDecimal(10) == "10";
    assert NatToDecimal(100) == "100";
    assert NatToDecimal(1000) == "1000";
  }
}

=== FILE: variants.dfy ===
/** The engine and the server side by side. On the same rules and maps the two
    report the same keys, in the same order, with the same severities; they
    differ only in the production check, where the server flags the non-null
    "disabled" values the engine lets through, and in how values are recorded. */
module Variants {
  import opened Wrappers
  import opened Values
  import opened Objects
  import opened Rules
  import Engine
  import Server

  /** The server's name for an engine drift type. */
  function ServerType(t: Engine.DriftType): Server.ServerDriftType {
    match t
    case Missing => Server.MissingRequired
    case Overridden => Server.Override
    case Unsafe => Server.RuleViolation
  }

  /** Position by position, the records and the drifts name the same key, with the
      same severity and the corresponding type. */
  predicate Corresponds(s: seq<Server.DriftRecord>, e: seq<Engine.Drift>) {
    && |s| == |e|
    && forall i :: 0 <= i < |s| ==>
         && s[i].configKey == e[i].configKey
         && s[i].severity == e[i].severity
         && s[i].driftType == ServerType(e[i].driftType)
  }

  lemma CorrespondsConcat(s1: seq<Server.DriftRecord>, e1: seq<Engine.Drift>,
                          s2: seq<Server.DriftRecord>, e2: seq<Engine.Drift>)
    requires Corresponds(s1, e1) && Corresponds(s2, e2)
    ensures Corresponds(s1 + s2, e1 + e2)
  {
    forall i | 0 <= i < |s1 + s2|
      ensures (s1 + s2)[i].configKey == (e1 + e2)[i].configKey
      ensures (s1 + s2)[i].severity == (e1 + e2)[i].severity
      ensures (s1 + s2)[i].driftType == ServerType((e1 + e2)[i].driftType)
    {
      if i >= |s1| {
        assert (s1 + s2)[i] == s2[i - |s1|] && (e1 + e2)[i] == e2[i - |s1|];
      }
    }
  }

  /** Missing checks agree. */
  lemma {:induction false} MissingVariantsCorrespond(runtime: Engine.ConfigMap, rules: seq<Rule>, app: string)
    ensures Corresponds(Server.DetectMissingRequired(runtime, rules, app), Engine.DetectMissing(runtime, rules))
    decreases |rules|
  {
    if |rules| > 0 {
      MissingVariantsCorrespond(runtime, rules[1..], app);
      var s0 := if !rules[0].required then []
                else if Engine.HasMatchingKey(runtime, rules[0].key) then []
                else [Server.MissingRecord(app, rules[0])];
      var e0 := if rules[0].required && !Engine.HasMatchingKey(runtime, rules[0].key)
                then [Engine.MissingDrift(rules[0])] else [];
      CorrespondsConcat(s0, e0, Server.DetectMissingRequired(runtime, rules[1..], app), Engine.DetectMissing(runtime, rules[1..]));
    }
  }

  /** Override checks agree; the server's actual value is the engine's actual value
      as a string. */
  lemma {:induction false} OverrideVariantsCorrespond(declared: Engine.ConfigMap, runtime: Engine.ConfigMap, rules: seq<Rule>, app: string)
    ensures Corresponds(Server.DetectRuntimeOverrides(declared, runtime, rules, app),
                        Engine.DetectOverridden(declared, runtime, rules))
    ensures forall i :: 0 <= i < |Server.DetectRuntimeOverrides(declared, runtime, rules, app)| ==>
              Server.DetectRuntimeOverrides(declared, runtime, rules, app)[i].actualValue
              == Some(ToStr(Engine.DetectOverridden(declared, runtime, rules)[i].actualValue))
    decreases |runtime|
  {
    if |runtime| > 0 {
      OverrideVariantsCorrespond(declared, runtime[1..], rules, app);
      var s0 := Server.OverrideRecordFor(declared, runtime[0].0, runtime[0].1, rules, app);
      var e0 := Engine.OverrideFor(declared, runtime[0].0, runtime[0].1, rules);
      var s1 := Server.DetectRuntimeOverrides(declared, runtime[1..], rules, app);
      var e1 := Engine.DetectOverridden(declared, runtime[1..], rules);
      assert Corresponds(s0, e0);
      CorrespondsConcat(s0, e0, s1, e1);
      forall i | 0 <= i < |s0 + s1|
        ensures (s0 + s1)[i].actualValue == Some(ToStr((e0 + e1)[i].actualValue))
      {
        if i >= |s0| {
          assert (s0 + s1)[i] == s1[i - |s0|] && (e0 + e1)[i] == e1[i - |s0|];
        }
      }
    }
  }

  /** The one difference between the checks: in production, under a rule that is
      not allowed there, the server also flags `false`, `"false"` and `"0"`. The
      bound checks are the same. */
  lemma ProductionCheckDiffers(value: Value, rule: Rule, env: string)
    ensures Server.ServerViolates(Engine.ProdRestricted, value, rule, env)
        <==> Engine.Violates(Engine.ProdRestricted, value, rule, env)
             || (IsProdEnv(env) && !rule.allowedInProd && value in {VBool(false), VStr("false"), VStr("0")})
    ensures Server.ServerViolates(Engine.BelowMin, value, rule, env) <==> Engine.Violates(Engine.BelowMin, value, rule, env)
    ensures Server.ServerViolates(Engine.AboveMax, value, rule, env) <==> Engine.Violates(Engine.AboveMax, value, rule, env)
  {
  }

  /** A value both production checks treat alike: `null`, or not a disabled
      sentinel. */
  predicate NoDisabledFlag(v: Value) {
    v == VNull || !Engine.IsDisabledSentinel(v)
  }

  lemma EntryVariantsCorrespond(key: string, value: Value, rule: Rule, env: string, app: string)
    requires NoDisabledFlag(value)
    ensures Corresponds(Server.ViolationFor(key, value, rule, env, app), Engine.UnsafeFor(key, value, rule, env))
  {
    Server.ViolationForExact(key, value, rule, env, app);
    Engine.UnsafeForExact(key, value, rule, env);
    var s1, s2, s3 := Server.ViolationIf(Engine.ProdRestricted, key, value, rule, env, app),
                      Server.ViolationIf(Engine.BelowMin, key, value, rule, env, app),
                      Server.ViolationIf(Engine.AboveMax, key, value, rule, env, app);
    var e1, e2, e3 := Engine.UnsafeIf(Engine.ProdRestricted, key, value, rule, env),
                      Engine.UnsafeIf(Engine.BelowMin, key, value, rule, env),
                      Engine.UnsafeIf(Engine.AboveMax, key, value, rule, env);
    assert Corresponds(s1, e1) && Corresponds(s2, e2) && Corresponds(s3, e3);
    CorrespondsConcat(s1, e1, s2, e2);
    CorrespondsConcat(s1 + s2, e1 + e2, s3, e3);
  }

  /** When no runtime value is a non-null disabled sentinel, the violation and
      unsafe checks agree. */
  lemma {:induction false} ViolationVariantsCorrespond(runtime: Engine.ConfigMap, rules: seq<Rule>, env: string, app: string)
    requires forall i :: 0 <= i < |runtime| ==> NoDisabledFlag(runtime[i].1)
    ensures Corresponds(Server.DetectRuleViolations(runtime, rules, app, env), Engine.DetectUnsafe(runtime, rules, env))
    decreases |runtime|
  {
    if |runtime| > 0 {
      var e := runtime[0];
      ViolationVariantsCorrespond(runtime[1..], rules, env, app);
      if FindRule(e.0, rules).Some? {
        EntryVariantsCorrespond(e.0, e.1, FindRule(e.0, rules).value, env, app);
      }
      CorrespondsConcat(Server.EntryViolations(e, rules, env, app), Engine.EntryUnsafe(e, rules, env),
                        Server.DetectRuleViolations(runtime[1..], rules, app, env), Engine.DetectUnsafe(runtime[1..], rules, env));
    }
  }

  /** Given the baseline as declared configuration, the server's detection and the
      engine's report the same keys in the same order with the same severities,
      unless a runtime value is a non-null disabled sentinel. */
  lemma DetectionVariantsCorrespond(declared: Engine.ConfigMap, runtime: Engine.ConfigMap, rules: seq<Rule>, env: string, app: string)
    requires forall i :: 0 <= i < |runtime| ==> NoDisabledFlag(runtime[i].1)
    ensures Corresponds(Server.DetectAll(Some(declared), runtime, rules, env, app),
                        Engine.DetectDrift(declared, runtime, rules, env))
  {
    var applicable := Applicable(rules, env);
    MissingVariantsCorrespond(runtime, applicable, app);
    OverrideVariantsCorrespond(declared, runtime, applicable, app);
    ViolationVariantsCorrespond(runtime, applicable, env, app);
    var s1, s2, s3 := Server.DetectMissingRequired(runtime, applicable, app),
                      Server.DetectRuntimeOverrides(declared, runtime, applicable, app),
                      Server.DetectRuleViolations(runtime, applicable, app, env);
    var e1, e2, e3 := Engine.DetectMissing(runtime, applicable),
                      Engine.DetectOverridden(declared, runtime, applicable),
                      Engine.DetectUnsafe(runtime, applicable, env);
    CorrespondsConcat(s1, e1, s2, e2);
    CorrespondsConcat(s1 + s2, e1 + e2, s3, e3);
  }
}

=== FILE: wrappers.dfy ===
/** The optional-value datatype used for JavaScript's `null`/`undefined` results. */
module Wrappers {

  /** `None` stands for an absent value (`undefined` or `null`), `Some(v)` for a present one. */
  datatype Option<+T> = None | Some(value: T) {

    /** Returns the value encapsulated in Some, or `default` when absent. */
    function GetOr(default: T): T {
      match this
      case Some(v) => v
      case None => default
    }
  }
}
